=== FILE: README.md ===
# NLog Elasticsearch target — a Dafny model

This project models the core of the NLog target that ships log events to Elasticsearch through the bulk API:

- **Configuration.** When the target is initialised, it splits its comma-separated node list and its excluded-property list.
- **Payload.** It assembles the bulk payload. Each event contributes an index-metadata object followed by its document. A document is built from:
  - the default keys `@timestamp`, `level` and `message`;
  - the exception's structure, with dots in keys replaced;
  - the typed extra fields;
  - optionally, the event's own properties.
- **Dispatch.** It sends a batch and tells every event's continuation the outcome.

It also models the helpers this core relies on:

- the two copies of the type-name conversion `ToSystemType`;
- the connection-string lookup;
- both versions of the dot-replacing rewrite of ExpandoObject trees;
- the recursion-limit policy of `ObjectConverter.FormatValueSafe`;
- the flattening contract resolver and the to-string converter;
- the lazily cached converter of `ObjectTypeConvert`;
- the collapsing of aggregate exceptions.

Modules follow the source files:

| Module | Models |
|---|---|
| `ElasticSearchTarget` | `ElasticSearchTarget.cs` and `Field.cs` |
| `Extensions` | `Extensions.cs` |
| `StringExtensions` | `StringExtensions.cs` |
| `ExpandoObjectExtensions` | `ExpandoObjectExtensions.cs` |
| `ObjectConverter` | `ObjectConverter.cs` |
| `FlatObjectContractResolver` | `FlatObjectContractResolver.cs` |
| `JsonToStringConverter` | `JsonToStringConverter.cs` |
| `ObjectTypeConvert` | `ObjectTypeConvert.cs` |
| `ExceptionExtensions` | `ExceptionExtensions.cs` |

Supporting modules:

- `Values`: the dynamic values and the ExpandoObject / `Dictionary<string, object>` they live in.
- `Clr`: runtime types, objects and exceptions.
- `Strings`: the .NET string primitives used.
- `SystemConvert`: the `System.Convert` calls.
- `JsonNet`: the JSON.NET types the converters see.
- `Wrappers`: `Option` and `Result`.

## How the model is built

**Objects as ordered lists.** An ExpandoObject or `Dictionary<string, object>` is an ordered list of key/value entries.

- Assigning to an existing key replaces its value where it stands. Assigning a new key appends it.
- This matches the enumeration order of those types when nothing is removed, and the code never removes anything.
- Values are null, strings, booleans, 32- and 64-bit integers, doubles (as opaque bits), timestamps, nested objects, lists, or any other object.
- Any other object is kept opaque with its runtime type and `ToString()` text.
- A list is a JSON array as the round trip yields it. Both rewrites descend only into values that are themselves ExpandoObjects (`Extensions.cs:52`, `ExpandoObjectExtensions.cs:24`). So a list is copied as it is, and the objects inside it are not rewritten.

**Collaborators as parameters.** Whatever lies outside these files is passed in as a function parameter:

- layout rendering (`RenderLogEvent`);
- the JSON round trip of an exception into an ExpandoObject, which may throw;
- the conversion of a rendered field to its `LayoutType`;
- the outcome of the bulk call;
- the environment and the application configuration;
- `Convert.ToDouble` and `Convert.ToDateTime`;
- a contract resolver and the object-to-ExpandoObject round trip.

The conversion of a rendered field is done by a three-argument `ToSystemType` overload at `ElasticSearchTarget.cs:220`. That overload is not part of this model.

**Thrown exceptions.** A thrown exception is a `Result.Failure`. A continuation is a function from its argument to the exception it throws, if any.

**Dispatch as a record.** `SendBatch` builds the payload and hands the result, success or exception, to `SendPayload`, which models the rest of the `try` and `catch` blocks. Both return what the dispatch does:

- the sequence of continuation calls, with their arguments;
- the exceptions it logs;
- the exception that escapes it, if any.

**Behaviour worth noting:**

- Fields are written by assignment (`ElasticSearchTarget.cs:220`), so a later field overwrites an earlier value, default keys included.
- Colliding keys are never renamed: a property whose key is already present is skipped (`ElasticSearchTarget.cs:236`).
- Every bulk item uses the `index` action (`ElasticSearchTarget.cs:243-253`).
- Property values are stored as they are (`ElasticSearchTarget.cs:239`); `FormatValueSafe` is not called while building a document.
- The exception subtree is always added, with `Add` (`ElasticSearchTarget.cs:208`). It cannot collide, because only the three default keys exist at that point.
- Objects inside lists keep their dotted keys and null values. An aggregate exception's `InnerExceptions` array is such a list (`Extensions.DottedKeyInListSurvives`).

**The two `ReplaceDotInKeys` versions.** They are overloads of the same extension method name. Which one a call binds to depends on which helper class a build compiles. The model therefore has both, and proves them equal:

- `ExpandoObjectExtensions.ModesAgree` shows that the newer version, in either mode, builds the same tree as the older one.
- The newer version's restart on its first non-trivial entry is modelled as a call in cloning mode. By `CloningAgrees`, that call equals the older version.

**`AggregateException.Flatten`.** It is modelled as .NET implements it: a breadth-first walk over a queue of aggregates. `FlattenToActualException` is proved to keep exactly the depth-first leaves, as a multiset.

## Model

| member | source | states |
|---|---|---|
| ElasticSearchTarget.DefaultField | src/NLog.Targets.ElasticSearch/Field.cs:31 | a field converts to `System.String` unless configured otherwise |
| ElasticSearchTarget.NodeListText | src/NLog.Targets.ElasticSearch/ElasticSearchTarget.cs:123 | a connection string found by name is the node list; only when there is none is the `Uri` layout rendered against the null event |
| ElasticSearchTarget.InitializeTarget | src/NLog.Targets.ElasticSearch/ElasticSearchTarget.cs:119-148 | the nodes are the non-empty comma segments of the node list, in their order and each as often as it occurs, with no empty segment and no comma in any node; the excluded set is left as it was when `ExcludedProperties` is null or empty, and otherwise holds exactly its non-empty comma segments |
| ElasticSearchTarget.NodesLossless | src/NLog.Targets.ElasticSearch/ElasticSearchTarget.cs:123-124 | when no comma segment is empty, the nodes are all the segments and join back to the node list |
| ElasticSearchTarget.FieldValue | src/NLog.Targets.ElasticSearch/ElasticSearchTarget.cs:213-226 | blank rendered text assigns nothing; non-blank text assigns a value exactly when the conversion does not throw, and that value is the conversion's result |
| ElasticSearchTarget.ApplyField | src/NLog.Targets.ElasticSearch/ElasticSearchTarget.cs:211-227 | a field that assigns sets its key to the converted value and changes no other key; a field that does not assign leaves the document as it is; existing keys keep their positions |
| ElasticSearchTarget.ApplyFields | src/NLog.Targets.ElasticSearch/ElasticSearchTarget.cs:211-227 | the field loop keeps the keys it starts with as a prefix, in order, and keeps keys unique |
| ElasticSearchTarget.LastFieldWins | src/NLog.Targets.ElasticSearch/ElasticSearchTarget.cs:220 | the value of the last assigning field of a name is the one the document holds, even over a default key or an earlier field |
| ElasticSearchTarget.UnassignedKeyKept | src/NLog.Targets.ElasticSearch/ElasticSearchTarget.cs:211-227 | a key no field assigns keeps its value: blank and failing fields are skipped and the loop carries on |
| ElasticSearchTarget.FieldKeys | src/NLog.Targets.ElasticSearch/ElasticSearchTarget.cs:211-227 | every key after the field loop was there before or is the name of a field that assigned a value |
| ElasticSearchTarget.AddProperty | src/NLog.Targets.ElasticSearch/ElasticSearchTarget.cs:231-240 | an excluded or already present key leaves the document unchanged; any other property is appended under its own key, so existing entries stay in place and keys stay unique |
| ElasticSearchTarget.ApplyProperties | src/NLog.Targets.ElasticSearch/ElasticSearchTarget.cs:229-241 | the property loop only appends: the document it starts with is a prefix of the result, each added entry is a property of the event with a non-excluded key, and keys stay unique |
| ElasticSearchTarget.PropertiesNeverOverwrite | src/NLog.Targets.ElasticSearch/ElasticSearchTarget.cs:236-237 | a key already in the document keeps its value through the property loop |
| ElasticSearchTarget.PropertyKeys | src/NLog.Targets.ElasticSearch/ElasticSearchTarget.cs:229-241 | a key is in the result iff it was in the document or some property carries it and it is not excluded |
| ElasticSearchTarget.FirstPropertyWins | src/NLog.Targets.ElasticSearch/ElasticSearchTarget.cs:233-239 | of several properties with the same absent, non-excluded key, the first supplies the value; no renaming |
| ElasticSearchTarget.DefaultExclusionsKeptOut | src/NLog.Targets.ElasticSearch/ElasticSearchTarget.cs:20 | with `ExcludedProperties` unset or empty, the five default names (`CallerMemberName`, `CallerFilePath`, `CallerLineNumber`, `MachineName`, `ThreadId`) are never copied from event properties |
| ElasticSearchTarget.ConfiguredExclusionsReplaceDefaults | src/NLog.Targets.ElasticSearch/ElasticSearchTarget.cs:146-147 | a non-empty `ExcludedProperties` replaces the defaults: a default name it does not list is copied when a property carries it |
| ElasticSearchTarget.DefaultDocument | src/NLog.Targets.ElasticSearch/ElasticSearchTarget.cs:197-202 | a document starts with exactly `@timestamp`, `level`, `message`, in that order |
| ElasticSearchTarget.ExceptionValue | src/NLog.Targets.ElasticSearch/ElasticSearchTarget.cs:208 | the exception subtree has no dotted key, no null value and no repeated key, in the object and in every object nested in it as a value; objects inside lists are kept as the round trip gave them |
| ElasticSearchTarget.BaseDocument | src/NLog.Targets.ElasticSearch/ElasticSearchTarget.cs:197-209 | building throws iff the event has an exception whose JSON round trip throws, with that exception; otherwise the default keys are followed by `exception` exactly when the event has one, and keys are unique |
| ElasticSearchTarget.FieldsAndProperties | src/NLog.Targets.ElasticSearch/ElasticSearchTarget.cs:211-241 | fields and properties keep the base keys as a prefix, in order, and keep keys unique |
| ElasticSearchTarget.BuildDocument | src/NLog.Targets.ElasticSearch/ElasticSearchTarget.cs:197-241 | a document fails only through the exception's round trip; it begins with `@timestamp`, `level`, `message`, then `exception` when the event has one, and no key repeats |
| ElasticSearchTarget.BaseLookups | src/NLog.Targets.ElasticSearch/ElasticSearchTarget.cs:197-209 | before the fields run, `@timestamp` holds the event time, `level` the level name, `message` the rendered layout and, when the event has an exception, `exception` its dot-free structure |
| ElasticSearchTarget.DefaultValuesKept | src/NLog.Targets.ElasticSearch/ElasticSearchTarget.cs:197-241 | a default key no field assigns holds the event's timestamp, level name and rendered message; `exception`, unless a field assigns it, holds the dot-free rewrite of the exception's structure |
| ElasticSearchTarget.NoPropertiesUnlessIncluded | src/NLog.Targets.ElasticSearch/ElasticSearchTarget.cs:229 | without `IncludeAllProperties` every key is a default key, `exception` or an assigning field's name |
| ElasticSearchTarget.PropertyAdded | src/NLog.Targets.ElasticSearch/ElasticSearchTarget.cs:229-240 | with `IncludeAllProperties`, a property with a new, non-excluded key not carried earlier is stored with its own value |
| ElasticSearchTarget.Metadata | src/NLog.Targets.ElasticSearch/ElasticSearchTarget.cs:243-253 | the metadata is `{ index: { _index, _type[, pipeline] } }` with the lower-cased rendered index, the rendered document type, and `pipeline` present iff a pipeline is configured |
| ElasticSearchTarget.MetadataIndexLowerCase | src/NLog.Targets.ElasticSearch/ElasticSearchTarget.cs:243 | `_index` equals the rendered index up to case and holds no upper-case letter |
| ElasticSearchTarget.Interleave | src/NLog.Targets.ElasticSearch/ElasticSearchTarget.cs:191-256 | for any metadata and document builders: the payload exists iff every document builds, has 2N entries with entry 2i the metadata and 2i+1 the document of event i, and otherwise fails with the error of the first event whose document fails |
| ElasticSearchTarget.FormPayload | src/NLog.Targets.ElasticSearch/ElasticSearchTarget.cs:189-260 | the payload is built iff every document can be built; then it has exactly 2N entries, entry 2i being event i's metadata and entry 2i+1 its document; otherwise it fails with the error of the first event whose document fails |
| ElasticSearchTarget.ResponseException | src/NLog.Targets.ElasticSearch/ElasticSearchTarget.cs:168 | a response stands for no exception iff it is a success; otherwise for the client's original exception, or a synthesized "No error message" exception when there is none |
| ElasticSearchTarget.BatchOutcome | src/NLog.Targets.ElasticSearch/ElasticSearchTarget.cs:162-168 | the value continuations receive is null iff the payload was built and the bulk call returns a successful response; a payload or bulk-call exception is passed on as it is; a response that is not a success gives the client's original exception, or the synthesized one when there is none |
| ElasticSearchTarget.NotifyAll | src/NLog.Targets.ElasticSearch/ElasticSearchTarget.cs:174-177 | continuations are called in order with the same argument, and the loop stops at the first one that throws, with its exception |
| ElasticSearchTarget.NotifyAllStopsAt | src/NLog.Targets.ElasticSearch/ElasticSearchTarget.cs:174-177 | the loop makes exactly the calls up to and including the first throwing continuation |
| ElasticSearchTarget.Catch | src/NLog.Targets.ElasticSearch/ElasticSearchTarget.cs:179-186 | the catch block logs the collapsed exception after what was logged before; after the earlier calls it calls continuations 0, 1, … in order with that exception, all of them with nothing escaping exactly when none throws, and otherwise up to the first that throws, every earlier one having returned, and its exception escapes |
| ElasticSearchTarget.SendPayload | src/NLog.Targets.ElasticSearch/ElasticSearchTarget.cs:166-186 | given what building the payload gave, when no continuation throws: each is called exactly once, in order, with the batch outcome, nothing escapes, and exactly the collapsed outcome exception is logged when there is one |
| ElasticSearchTarget.SendBatch | src/NLog.Targets.ElasticSearch/ElasticSearchTarget.cs:160-187 | when no continuation throws, each is called exactly once, in order, with the outcome of the payload built from the batch's events, nothing escapes, and a document that cannot be built is logged as the only error |
| ElasticSearchTarget.ThrowingContinuationReinvokes | src/NLog.Targets.ElasticSearch/ElasticSearchTarget.cs:174-185 | as written, when continuation j throws on the success path, the first continuation is called a second time, with that exception, as call j+1 |
| ElasticSearchTarget.ThrowingContinuationRunsTwice | src/NLog.Targets.ElasticSearch/ElasticSearchTarget.cs:174-185 | any built payload, a successful response and one continuation that always throws: it is called with null, then with its own exception, which escapes |
| ElasticSearchTarget.DoubleInvocationWitness | src/NLog.Targets.ElasticSearch/ElasticSearchTarget.cs:160-187 | one event without an exception, a successful response, a throwing continuation: `SendBatch` calls it with null, then with its own exception, which escapes |
| ElasticSearchTarget.NotifyEach | src/NLog.Targets.ElasticSearch/ElasticSearchTarget.cs:174-177 | the corrected loop calls every continuation once, in order, and nothing escapes |
| ElasticSearchTarget.SendPayloadOnce | src/NLog.Targets.ElasticSearch/ElasticSearchTarget.cs:160-187 | the corrected dispatch calls every continuation exactly once, in order, with the batch outcome, and nothing escapes, whatever the continuations do |
| ElasticSearchTarget.SendPayloadOnceRefines | src/NLog.Targets.ElasticSearch/ElasticSearchTarget.cs:160-187 | when no continuation throws, the corrected dispatch makes the same calls as the code as written, and neither lets an exception escape |
| ExpandoObjectExtensions.ReplaceDotInKeys | src/NLog.Targets.ElasticSearch/ExpandoObjectExtensions.cs:13-44 | with `alwaysCloneObject` the result is never the input instance |
| ExpandoObjectExtensions.Walk | src/NLog.Targets.ElasticSearch/ExpandoObjectExtensions.cs:16-42 | once a clone exists the loop never hands back the input instance |
| ExpandoObjectExtensions.CloningWalkAgrees | src/NLog.Targets.ElasticSearch/ExpandoObjectExtensions.cs:16-42 | the cloning loop, started from the older rewrite of a prefix, ends at the older rewrite of the whole object |
| ExpandoObjectExtensions.CloningAgrees | src/NLog.Targets.ElasticSearch/ExpandoObjectExtensions.cs:13-44 | in cloning mode the newer rewrite builds the same tree as the older one |
| ExpandoObjectExtensions.ScanningWalk | src/NLog.Targets.ElasticSearch/ExpandoObjectExtensions.cs:15-43 | the scan returns the input itself when no top-level entry is null, nested or dotted, and otherwise the full clone |
| ExpandoObjectExtensions.ReusedExactlyWhenClean | src/NLog.Targets.ElasticSearch/ExpandoObjectExtensions.cs:15-43 | the input instance is returned iff cloning is not forced and nothing at the top level needs rewriting, and then the result is the input |
| ExpandoObjectExtensions.ModesAgree | src/NLog.Targets.ElasticSearch/ExpandoObjectExtensions.cs:13-44 | for an object with unique keys, both modes give the tree the older always-cloning rewrite gives |
| ExpandoObjectExtensions.CleanObjectIsCanonical | src/NLog.Targets.ElasticSearch/ExpandoObjectExtensions.cs:36-43 | an object the scan hands back unchanged already has no dotted key and no null value |
| ExpandoObjectExtensions.CloneIsCanonical | src/NLog.Targets.ElasticSearch/ExpandoObjectExtensions.cs:20-40 | in cloning mode no key has a dot and no value is null, in the object and in every object nested in it as a value; list contents are not rewritten |
| Extensions.ToSystemType | src/NLog.Targets.ElasticSearch/Extensions.cs:11-28 | the same contract as `StringExtensions.ToSystemType`, whose body is the same: unknown type names return the text unchanged; `System.Boolean` gives a boolean exactly when the text parses; the integer types give values in their 32- or 64-bit range, an overflow for integer text outside it and a format error for other text; `System.Double` and `System.DateTime` give the parser's value when it accepts the text and a format error when it rejects it |
| Extensions.ToSystemTypeInt32RoundTrip | src/NLog.Targets.ElasticSearch/Extensions.cs:21-22 | every 32-bit integer's text converts back to it |
| Extensions.ToSystemTypeInt64RoundTrip | src/NLog.Targets.ElasticSearch/Extensions.cs:23-24 | every 64-bit integer's text converts back to it |
| Extensions.ToSystemTypeBooleanRoundTrip | src/NLog.Targets.ElasticSearch/Extensions.cs:15-16 | `True`/`False` in any ASCII case converts back to the boolean |
| Extensions.GetConnectionString | src/NLog.Targets.ElasticSearch/Extensions.cs:30-39 | a non-empty environment value for a non-empty name wins; otherwise the connection string of that name is returned; it is the same lookup as `StringExtensions.GetConnectionString` |
| Extensions.ReplaceDotInKeys | src/NLog.Targets.ElasticSearch/Extensions.cs:45-61 | the rewrite has no dotted key, no null value and no repeated key, in the object and in every object nested in it as a value; list contents are copied as they are |
| Extensions.CopyItem | src/NLog.Targets.ElasticSearch/Extensions.cs:50-58 | one loop iteration keeps the clone free of dotted keys, null values and repeated keys |
| Extensions.CopyItemAssigns | src/NLog.Targets.ElasticSearch/Extensions.cs:50-58 | a null entry is skipped; every other entry assigns its rewritten value under its underscored key |
| Extensions.CanonicalFixpoint | src/NLog.Targets.ElasticSearch/Extensions.cs:45-61 | an object with no dotted key, null value or repeated key, in itself or in any object nested in it as a value, is rewritten to itself |
| Extensions.ReplaceDotInKeysIdempotent | src/NLog.Targets.ElasticSearch/Extensions.cs:45-61 | rewriting twice gives the same tree as rewriting once |
| Extensions.LaterEntryWins | src/NLog.Targets.ElasticSearch/Extensions.cs:52-58 | the last non-null entry whose key underscores to a key supplies that key's rewritten value; earlier colliding entries are overwritten |
| Extensions.UnmatchedKeyAbsent | src/NLog.Targets.ElasticSearch/Extensions.cs:50-58 | a key no non-null entry underscores to is absent |
| Extensions.LeafKept | src/NLog.Targets.ElasticSearch/Extensions.cs:55-58 | a non-null leaf value is kept unchanged under its underscored key unless a later entry collides |
| Extensions.ListContentsKept | src/NLog.Targets.ElasticSearch/Extensions.cs:55-58 | a list is copied under the underscored key with its contents unchanged |
| Extensions.DottedKeyInListSurvives | src/NLog.Targets.ElasticSearch/Extensions.cs:52-58 | an object with a dotted key inside a list, such as an inner exception, keeps that key after the rewrite |
| StringExtensions.ToSystemType | src/NLog.Targets.ElasticSearch/StringExtensions.cs:13-30 | unknown type names return the text unchanged; `System.Boolean` gives a boolean exactly when the text parses; the integer types give values in their 32- or 64-bit range, an overflow for integer text outside it and a format error for other text; `System.Double` and `System.DateTime` give the parser's value when it accepts the text and a format error when it rejects it |
| StringExtensions.ToSystemTypeInt32RoundTrip | src/NLog.Targets.ElasticSearch/StringExtensions.cs:23-24 | every 32-bit integer's text converts back to it |
| StringExtensions.ToSystemTypeInt64RoundTrip | src/NLog.Targets.ElasticSearch/StringExtensions.cs:25-26 | every 64-bit integer's text converts back to it |
| StringExtensions.ToSystemTypeBooleanRoundTrip | src/NLog.Targets.ElasticSearch/StringExtensions.cs:17-18 | `True`/`False` in any ASCII case converts back to the boolean |
| StringExtensions.GetEnvironmentVariable | src/NLog.Targets.ElasticSearch/StringExtensions.cs:51-54 | a null or empty name is never looked up; any other name is looked up in the environment |
| StringExtensions.GetConnectionString | src/NLog.Targets.ElasticSearch/StringExtensions.cs:32-49 | a non-empty environment value wins; only otherwise is the configuration consulted |
| StringExtensions.EmptyNameIgnoresEnvironment | src/NLog.Targets.ElasticSearch/StringExtensions.cs:51-54 | with a null or empty name the environment has no influence |
| StringExtensions.EnvironmentShadowsConfiguration | src/NLog.Targets.ElasticSearch/StringExtensions.cs:34-36 | when the environment supplies a non-empty value the configuration has no influence |
| SystemConvert.ToBoolean | src/NLog.Targets.ElasticSearch/StringExtensions.cs:18 | the conversion succeeds with b exactly when the text parses as b, and otherwise is a format error |
| SystemConvert.ToBoundedInteger | src/NLog.Targets.ElasticSearch/StringExtensions.cs:23-26 | a result lies in range and is the integer the text denotes; non-integer text is a format error; integer text outside the range is an overflow |
| SystemConvert.ToInt32 | src/NLog.Targets.ElasticSearch/StringExtensions.cs:24 | a result lies in the 32-bit range |
| SystemConvert.ToInt64 | src/NLog.Targets.ElasticSearch/StringExtensions.cs:26 | a result lies in the 64-bit range |
| SystemConvert.BoundedIntegerRoundTrip | src/NLog.Targets.ElasticSearch/StringExtensions.cs:23-26 | an integer in range survives formatting and conversion |
| SystemConvert.BoundedIntegerOverflow | src/NLog.Targets.ElasticSearch/StringExtensions.cs:23-26 | the text of an integer outside the range is an overflow, not a format error |
| SystemConvert.ToDouble | src/NLog.Targets.ElasticSearch/StringExtensions.cs:20 | the conversion succeeds with the parser's value when the parser accepts the text, and is a format error exactly when it rejects it |
| SystemConvert.ToDateTime | src/NLog.Targets.ElasticSearch/StringExtensions.cs:22 | the conversion succeeds with the parser's value when the parser accepts the text, and is a format error exactly when it rejects it |
| ObjectConverter.FormatToExpandoObject | src/NLog.Targets.ElasticSearch/ObjectConverter.cs:37-46 | the call throws exactly when the round trip throws, with its exception; otherwise the result is an object, for an exception with a `Type` key naming the runtime type, and for anything else the round trip as it is |
| ObjectConverter.FormatValueSafe | src/NLog.Targets.ElasticSearch/ObjectConverter.cs:9-35 | null stays null; exceptions go through the round trip and get `Type` whatever the limit; with a negative limit, or for primitive or value types, the value is returned as it is; at limit 0 reference values become null (collections) or their text; above 0 only object-contract values go through the round trip, whose exception propagates |
| ObjectConverter.ResultKinds | src/NLog.Targets.ElasticSearch/ObjectConverter.cs:9-35 | every result is the value itself, null, the value's text or an object |
| ObjectConverter.ExceptionsIgnoreLimit | src/NLog.Targets.ElasticSearch/ObjectConverter.cs:11-14 | an exception is formatted the same way under every limit |
| ObjectConverter.OnlyLimitZeroFlattens | src/NLog.Targets.ElasticSearch/ObjectConverter.cs:15-34 | under any limit other than 0 a non-exception value is kept or expanded, never replaced by text or null |
| ObjectConverter.LimitZeroMatchesFlatWriter | src/NLog.Targets.ElasticSearch/ObjectConverter.cs:21-27 | at limit 0 a reference value comes out as the flattening converter writes it |
| ObjectConverter.FailsOnlyInRoundTrip | src/NLog.Targets.ElasticSearch/ObjectConverter.cs:9-46 | formatting throws iff there is a value, its round trip throws, and the round trip is reached: for an exception, or above limit 0 for a reference value with an object contract |
| ObjectConverter.SimpleTypeTestShared | src/NLog.Targets.ElasticSearch/ObjectConverter.cs:17-19 | the contract resolver's simple-type test (`FlatObjectContractResolver.cs:23-26`) lets a non-exception value through unchanged under any non-negative limit, and at limit 0 it is the only way through unchanged |
| FlatObjectContractResolver.CreateProperty | src/NLog.Targets.ElasticSearch/FlatObjectContractResolver.cs:15-21 | the flattening converter is attached iff the property is readable and its type is not simple; otherwise the property is left as it is; name, type and readability never change |
| FlatObjectContractResolver.CanConvert | src/NLog.Targets.ElasticSearch/FlatObjectContractResolver.cs:30-33 | every type can be converted |
| FlatObjectContractResolver.ReadJson | src/NLog.Targets.ElasticSearch/FlatObjectContractResolver.cs:35-38 | reading always yields null |
| FlatObjectContractResolver.WriteJson | src/NLog.Targets.ElasticSearch/FlatObjectContractResolver.cs:40-54 | null and collections are written as null, everything else as its text |
| FlatObjectContractResolver.WritersAgreeOffCollections | src/NLog.Targets.ElasticSearch/FlatObjectContractResolver.cs:40-54 | the flattening and to-string writers agree exactly on null and on non-collections |
| FlatObjectContractResolver.StringInObjectPropertyIsDropped | src/NLog.Targets.ElasticSearch/FlatObjectContractResolver.cs:46-49 | a string held in an `object` property is written as null, while a `string` property gets no converter |
| JsonToStringConverter.WriteJson | src/NLog.Targets.ElasticSearch/JsonToStringConverter.cs:20-30 | null is written as null; every other value, collections included, as its text |
| JsonToStringConverter.ReadJson | src/NLog.Targets.ElasticSearch/JsonToStringConverter.cs:33-36 | reading always fails |
| ObjectTypeConvert.Create | src/NLog.Targets.ElasticSearch/ObjectTypeConvert.cs:31-34 | the default constructor leaves the type null and nothing cached |
| ObjectTypeConvert.CreateFor | src/NLog.Targets.ElasticSearch/ObjectTypeConvert.cs:39-42 | the constructor stores the type and caches nothing |
| ObjectTypeConvert.SetObjectType | src/NLog.Targets.ElasticSearch/ObjectTypeConvert.cs:16 | setting the type leaves the cached converter alone |
| ObjectTypeConvert.SetJsonConverter | src/NLog.Targets.ElasticSearch/ObjectTypeConvert.cs:24 | setting the converter leaves the type alone |
| ObjectTypeConvert.GetJsonConverter | src/NLog.Targets.ElasticSearch/ObjectTypeConvert.cs:21-25 | a cached converter is returned as it is; with none and a null type the getter returns null and caches nothing; with none and a type it creates and caches a to-string converter for that type |
| ObjectTypeConvert.SetThenGet | src/NLog.Targets.ElasticSearch/ObjectTypeConvert.cs:21-25 | an assigned converter is what the getter returns |
| ObjectTypeConvert.GetIsStable | src/NLog.Targets.ElasticSearch/ObjectTypeConvert.cs:23 | a second read returns the same converter and changes nothing |
| ObjectTypeConvert.CacheSurvivesTypeChange | src/NLog.Targets.ElasticSearch/ObjectTypeConvert.cs:23 | once created, the converter stays the one for the original type after the type changes |
| ObjectTypeConvert.CreatedConverterScope | src/NLog.Targets.ElasticSearch/ObjectTypeConvert.cs:23 | the converter the getter creates for type T accepts T and every type with T among its base types and interfaces (`JsonToStringConverter.cs:39-42`), and no other type |
| ExceptionExtensions.Flatten | src/NLog.Targets.ElasticSearch/ExceptionExtensions.cs:12 | the flattened aggregate keeps the message and holds no aggregate |
| ExceptionExtensions.FlattenToActualException | src/NLog.Targets.ElasticSearch/ExceptionExtensions.cs:7-19 | a non-aggregate is returned as it is; an aggregate with one leaf gives that leaf; any other gives an aggregate with the same message whose inner list holds exactly the leaves, each as often as in the tree, and no aggregate |
| ExceptionExtensions.BreadthFirstIsPermutation | src/NLog.Targets.ElasticSearch/ExceptionExtensions.cs:12 | the breadth-first walk finds exactly the depth-first leaves, as a multiset |
| ExceptionExtensions.FlattenCollectsLeaves | src/NLog.Targets.ElasticSearch/ExceptionExtensions.cs:12 | flattening keeps every leaf exactly as often as it occurs, and nothing else |
| ExceptionExtensions.FlattenShallowKeepsOrder | src/NLog.Targets.ElasticSearch/ExceptionExtensions.cs:12 | without nested aggregates the inner list keeps its order |
| ExceptionExtensions.FlattenToActualExceptionIdempotent | src/NLog.Targets.ElasticSearch/ExceptionExtensions.cs:7-19 | collapsing twice is collapsing once |
| Values.Lookup | src/NLog.Targets.ElasticSearch/ElasticSearchTarget.cs:236 | a key is found iff it is among the keys, with a value stored under it, the only one when keys are unique |
| Values.Set | src/NLog.Targets.ElasticSearch/ElasticSearchTarget.cs:220 | after assignment the key holds the value, every other key is unchanged, an existing key keeps its position, a new key is appended, and keys stay unique |
| Values.LookupExtend | src/NLog.Targets.ElasticSearch/ElasticSearchTarget.cs:239 | appending entries does not change the value of a key already present |
| Values.Underscored | src/NLog.Targets.ElasticSearch/Extensions.cs:53 | `Replace('.', '_')` keeps the length, maps each dot to `_`, keeps other characters, and leaves no dot |
| Values.UnderscoredIdentity | src/NLog.Targets.ElasticSearch/Extensions.cs:55-58 | a key without a dot is unchanged by the replacement |
| Values.SetCanonical | src/NLog.Targets.ElasticSearch/Extensions.cs:53-58 | assigning a dot-free key a non-null, dot-free value keeps an object free of dotted keys, nulls and repeated keys, in itself and in the objects nested in it as values |
| Strings.Split | src/NLog.Targets.ElasticSearch/ElasticSearchTarget.cs:124 | splitting gives at least one segment and no segment holds the separator |
| Strings.JoinSplit | src/NLog.Targets.ElasticSearch/ElasticSearchTarget.cs:124 | joining the segments with the separator restores the text |
| Strings.SplitJoin | src/NLog.Targets.ElasticSearch/ElasticSearchTarget.cs:147 | splitting a join of separator-free segments gives the segments back |
| Strings.SplitRemoveEmptyEntries | src/NLog.Targets.ElasticSearch/ElasticSearchTarget.cs:124 | the segments are non-empty and separator-free, and are the plain split's segments with exactly the empty ones removed, each as often as it occurs |
| Strings.NonEmpty | src/NLog.Targets.ElasticSearch/ElasticSearchTarget.cs:124 | removing empty entries keeps every non-empty segment as often as it occurs and drops every empty one |
| Strings.NonEmptyAppend | src/NLog.Targets.ElasticSearch/ElasticSearchTarget.cs:124 | removing empty entries from a concatenation removes them from each part in place, so the kept segments stay in order |
| Strings.RemoveEmptyEntriesLossless | src/NLog.Targets.ElasticSearch/ElasticSearchTarget.cs:147 | with no empty segment nothing is removed and the segments join back to the text |
| Strings.ToLowerInvariant | src/NLog.Targets.ElasticSearch/ElasticSearchTarget.cs:243 | lower-casing keeps the length, lowers each letter and leaves no upper-case letter |
| Strings.ToLowerIdempotent | src/NLog.Targets.ElasticSearch/ElasticSearchTarget.cs:243 | lower-casing twice is lower-casing once |
| Strings.ParseShowInt | src/NLog.Targets.ElasticSearch/StringExtensions.cs:23-26 | the invariant text of every integer parses back to it |
| Strings.ParseShowBool | src/NLog.Targets.ElasticSearch/StringExtensions.cs:17-18 | `True`/`False` in any ASCII case parses back to the boolean |

## Left out

- Client setup (`ElasticSearchTarget.cs:125-144`) is left out: the connection pool, the configuration object, authentication, proxy detection, ping and compression. It is foreign-library configuration. The bulk call is a function parameter that throws or returns a response.
- Node addresses are not parsed with `new Uri(url)`. A malformed address, which would throw there, is not modelled.
- `_uri` cannot be null: its setter turns null into the empty string, and rendering never returns null. So the `?? string.Empty` fallback at `ElasticSearchTarget.cs:123` is unreachable and is not modelled.
- Layout rendering, the exception's JSON round trip, the bulk call, the environment and the application configuration are I/O or foreign code. They are function parameters.
- The field conversion overload called at `ElasticSearchTarget.cs:220` is not part of this model. It is a function parameter that may throw.
- JSON text and serializer settings (`ElasticSearchTarget.cs:262-267`, `ObjectConverter.cs:48-58`) are foreign-library behaviour. Only the object-to-tree round trip is kept, as a function parameter.
- The lazy serializer settings and the serializer reset after a failed field conversion (`ElasticSearchTarget.cs:22-24, 224`) are caching concerns and are not modelled.
- Logging is reduced to the collapsed exceptions `SendBatch` logs. The message texts, the HTTP status in the message, and the log entry for a failed field conversion are left out.
- `Write(logEvent)` and `Write(logEvents)` only forward to `SendBatch`, so they have no members of their own.
- `ElasticSearchConnectionConfigurationExtension.cs`, `IElasticSearchConnectionConfigurationFactory.cs`, `IElasticSearchTarget.cs` and `ElasticSearchField.cs` are left out: reflection, interfaces and a plain record. `Field` is kept as a datatype.
- Object identity is not modelled. The fast path's "returns the same instance" is a `reused` flag, and "a fresh tree that leaves the input unmodified" holds trivially because values are immutable.
- A null string passed to `ToSystemType` is not modelled. The target only converts rendered text that is not blank.
- SystemConvert.ToBoundedInteger: integer text follows the invariant culture: ASCII digits, `-`/`+`, and the white space `NumberStyles.Integer` allows. Culture-specific signs and the trailing NUL characters .NET also tolerates are not modelled.
- SystemConvert.ToDouble: delegates to a parser parameter, because floating point and culture-dependent parsing are out of scope. Every rejection is a format error: the overflow exception older .NET versions raise for out-of-range double text is not told apart. The same holds for `SystemConvert.ToDateTime`.
- Strings.ToLowerInvariant: lowers the ASCII letters only. Unicode case mapping of other letters is not modelled.
- ExceptionExtensions.FlattenToActualException: states that the inner list is a permutation of the depth-first leaves, not that it is in depth-first order. `AggregateException.Flatten` walks nested aggregates breadth-first, so depth-first order does not hold once aggregates nest. `FlattenShallowKeepsOrder` gives the order when nothing is nested.
- ObjectConverter.FormatToExpandoObject: assumes a round trip that does not throw yields an object. A round trip that yields null, which would skip the `Type` key, is not modelled.

## Findings

| source | as written | input that shows it | evidently intended | confidence | as-written member | corrected member |
|---|---|---|---|---|---|---|
| src/NLog.Targets.ElasticSearch/ElasticSearchTarget.cs:174-185 | The success-path loop over the continuations is inside the `try`. A continuation that throws sends control to the `catch`, which calls every continuation again with that exception, including those already called. If one of them throws again, that exception escapes `SendBatch`. | One event, a successful bulk response, and a continuation that always throws E. The continuation is called with null, then with E, and E escapes. | Every continuation is resolved exactly once. | not executed; medium, because continuations supplied by NLog may already guard against being called twice | ElasticSearchTarget.ThrowingContinuationReinvokes | ElasticSearchTarget.SendPayloadOnce |

=== FILE: clr.dfy ===
/** The slice of the .NET runtime type system that the target inspects:
    type codes, type identities with their supertypes, opaque objects and
    exceptions. */
module Clr {

  /** System.TypeCode. */
  datatype TypeCode =
    | Empty | Object | DBNull | Boolean | Char | SByte | Byte | Int16 | UInt16
    | Int32 | UInt32 | Int64 | UInt64 | Single | Double | Decimal | DateTime | String

  /** A runtime type: its full name, the code `Type.GetTypeCode` reports for
      it, whether it is a value type, and the full names of every base class
      and interface it derives from or implements. */
  datatype ClrType = ClrType(fullName: string, code: TypeCode, isValueType: bool, supertypes: set<string>)

  /** `value is T` / `typeof(T).IsAssignableFrom(t)` for the type named `name`. */
  predicate Is(t: ClrType, name: string) {
    t.fullName == name || name in t.supertypes
  }

  const EnumerableName := "System.Collections.IEnumerable"
  const ExceptionName := "System.Exception"
  const AggregateExceptionName := "System.AggregateException"

  predicate IsEnumerable(t: ClrType) { Is(t, EnumerableName) }
  predicate IsException(t: ClrType) { Is(t, ExceptionName) }

  const ObjectType := ClrType("System.Object", TypeCode.Object, false, {})
  const StringType := ClrType("System.String", TypeCode.String, false, {"System.Object", EnumerableName})
  const BooleanType := ClrType("System.Boolean", TypeCode.Boolean, true, {"System.Object", "System.ValueType"})
  const ExceptionType := ClrType(ExceptionName, TypeCode.Object, false, {"System.Object"})
  const AggregateExceptionType := ClrType(AggregateExceptionName, TypeCode.Object, false, {"System.Object", ExceptionName})

  /** A non-null object whose inner structure the target never inspects:
      only its runtime type and what its `ToString()` returns. */
  datatype ClrObject = ClrObject(runtimeType: ClrType, text: string)

  /** A thrown exception. `innerExceptions` is the `InnerExceptions` list of
      an aggregate exception and is not looked at for other exceptions. */
  datatype Exn = Exn(runtimeType: ClrType, message: string, innerExceptions: seq<Exn>)

  predicate IsAggregate(e: Exn) { Is(e.runtimeType, AggregateExceptionName) }

  /** The bits of an IEEE 754 double; the target never computes with it. */
  datatype Float64 = Float64(bits: bv64)

  /** A System.DateTime, as its tick count. */
  datatype Timestamp = Timestamp(ticks: int)
}

=== FILE: elastic_search_target.dfy ===
/** The target itself: the configuration it splits when initialised, the
    bulk payload it assembles from a batch of log events (an index-metadata
    object followed by the event's document, per event), and the dispatch
    that hands the batch to the client and reports one outcome to every
    event's continuation. Layout rendering, the exception's JSON round trip,
    field conversion and the bulk client are collaborators passed in. */
module ElasticSearchTarget {
  import opened Wrappers
  import opened Clr
  import opened Values
  import opened Strings
  import opened ExceptionExtensions
  import Extensions
  import StringExtensions

  /** An NLog layout, identified by its template text. */
  datatype Layout = Layout(template: string)

  /** An event property; the key is the text of the property's key object. */
  datatype Property = Property(key: string, value: Value)

  datatype LogEvent = LogEvent(timeStamp: Timestamp, levelName: string, exception: Option<Exn>, properties: seq<Property>)

  /** An additional document field: its name, the layout rendering its
      text, and the CLR type the text is converted to. */
  datatype Field = Field(name: string, layout: Layout, layoutType: ClrType)

  /** A field with the default `LayoutType`, string. */
  function DefaultField(name: string, layout: Layout): (f: Field)
    ensures f.layoutType.fullName == "System.String"
  {
    Field(name, layout, StringType)
  }

  const DefaultExcludedProperties: set<string> :=
    {"CallerMemberName", "CallerFilePath", "CallerLineNumber", "MachineName", "ThreadId"}

  /** The target's settings that shape the payload. */
  datatype Target = Target(
    layout: Layout,
    index: Layout,
    documentType: Layout,
    pipeline: Option<Layout>,
    fields: seq<Field>,
    includeAllProperties: bool,
    excludedProperties: set<string>)

  /** `render` is `RenderLogEvent`; `serializeException` is the exception's
      JSON round trip into an ExpandoObject, which may throw; `convertField`
      converts rendered field text to the field's type with the event's
      format provider, and may throw. */
  datatype Collaborators = Collaborators(
    render: (Layout, LogEvent) -> string,
    serializeException: Exn -> Result<Expando, Exn>,
    convertField: (string, ClrType, LogEvent) -> Result<Value, Exn>)

  // ---------------------------------------------------------------------
  // InitializeTarget

  /** The settings `InitializeTarget` reads besides the client options. */
  datatype Settings = Settings(connectionStringName: Option<string>, uri: Layout, excludedProperties: Option<string>)

  datatype Initialized = Initialized(nodes: seq<string>, excludedProperties: set<string>)

  /** The event layouts are rendered against when no event is at hand
      (`LogEventInfo.CreateNullEvent()`). Its time stamp is a placeholder:
      the real null event carries the current time, which the model does not
      have, and `render` is free to ignore the event. */
  const NullEvent := LogEvent(Timestamp(0), "Off", None, [])

  /** The node list text: the connection string when one is found, else the rendered `Uri`. */
  function NodeListText(s: Settings, env: string -> Option<string>, configuration: Option<string> -> Option<string>,
                        render: (Layout, LogEvent) -> string): (uri: string)
    ensures StringExtensions.GetConnectionString(s.connectionStringName, env, configuration).Some? ==>
      uri == StringExtensions.GetConnectionString(s.connectionStringName, env, configuration).value
    ensures StringExtensions.GetConnectionString(s.connectionStringName, env, configuration).None? ==>
      uri == render(s.uri, NullEvent)
  {
    StringExtensions.GetConnectionString(s.connectionStringName, env, configuration).GetOr(render(s.uri, NullEvent))
  }

  /** `InitializeTarget`: the node addresses are the non-empty comma-separated
      segments of the node list text; the excluded property names are
      replaced by the non-empty segments of `ExcludedProperties` when that
      is non-empty, and otherwise stay what they were. */
  function InitializeTarget(s: Settings, current: set<string>, env: string -> Option<string>,
                            configuration: Option<string> -> Option<string>,
                            render: (Layout, LogEvent) -> string): (r: Initialized)
    ensures forall i :: 0 <= i < |r.nodes| ==> r.nodes[i] != "" && ',' !in r.nodes[i]
    ensures forall n :: n in r.nodes <==> n != "" && n in Split(NodeListText(s, env, configuration, render), ',')
    ensures multiset(r.nodes) == multiset(Split(NodeListText(s, env, configuration, render), ','))["" := 0]
    ensures r.nodes == NonEmpty(Split(NodeListText(s, env, configuration, render), ','))
    ensures s.excludedProperties.None? || s.excludedProperties.value == "" ==> r.excludedProperties == current
    ensures s.excludedProperties.Some? && s.excludedProperties.value != "" ==>
      forall x :: x in r.excludedProperties <==> x != "" && x in Split(s.excludedProperties.value, ',')
  {
    var nodes := SplitRemoveEmptyEntries(NodeListText(s, env, configuration, render), ',');
    var excluded :=
      if s.excludedProperties.Some? && s.excludedProperties.value != "" then
        set x | x in SplitRemoveEmptyEntries(s.excludedProperties.value, ',')
      else current;
    Initialized(nodes, excluded)
  }

  /** A node list without empty segments is split into exactly its segments,
      which join back to it. */
  lemma NodesLossless(s: Settings, current: set<string>, env: string -> Option<string>,
                      configuration: Option<string> -> Option<string>, render: (Layout, LogEvent) -> string)
    requires var text := NodeListText(s, env, configuration, render);
      forall i :: 0 <= i < |Split(text, ',')| ==> Split(text, ',')[i] != ""
    ensures |InitializeTarget(s, current, env, configuration, render).nodes| >= 1
    ensures Join(InitializeTarget(s, current, env, configuration, render).nodes, ',') == NodeListText(s, env, configuration, render)
  {
    RemoveEmptyEntriesLossless(NodeListText(s, env, configuration, render), ',');
  }

  // ---------------------------------------------------------------------
  // The document of one event

  /** The value a field assigns, if any: nothing when its rendered text is
      blank or when the conversion throws. */
  function FieldValue(f: Field, ev: LogEvent, co: Collaborators): (r: Option<Value>)
    ensures IsBlank(co.render(f.layout, ev)) ==> r.None?
    ensures !IsBlank(co.render(f.layout, ev)) ==>
      (r.Some? <==> co.convertField(co.render(f.layout, ev), f.layoutType, ev).Success?)
    ensures r.Some? ==> co.convertField(co.render(f.layout, ev), f.layoutType, ev) == Success(r.value)
  {
    var rendered := co.render(f.layout, ev);
    if IsBlank(rendered) then None
    else match co.convertField(rendered, f.layoutType, ev)
      case Success(v) => Some(v)
      case Failure(_) => None
  }

  /** One iteration of the field loop: `document[field.Name] = value`. */
  function ApplyField(doc: Expando, f: Field, ev: LogEvent, co: Collaborators): (r: Expando)
    ensures FieldValue(f, ev, co).None? ==> r == doc
    ensures FieldValue(f, ev, co).Some? ==> Lookup(r, f.name) == FieldValue(f, ev, co)
    ensures forall k :: k != f.name ==> Lookup(r, k) == Lookup(doc, k)
    ensures |r| >= |doc| && forall i :: 0 <= i < |doc| ==> r[i].key == doc[i].key
    ensures UniqueKeys(doc) ==> UniqueKeys(r)
  {
    match FieldValue(f, ev, co)
    case None => doc
    case Some(v) => Set(doc, f.name, v)
  }

  /** The field loop, over the fields in declaration order. */
  function ApplyFields(doc: Expando, fields: seq<Field>, ev: LogEvent, co: Collaborators): (r: Expando)
    ensures |r| >= |doc| && forall i :: 0 <= i < |doc| ==> r[i].key == doc[i].key
    ensures UniqueKeys(doc) ==> UniqueKeys(r)
  {
    if |fields| == 0 then doc
    else ApplyField(ApplyFields(doc, fields[..|fields| - 1], ev, co), fields[|fields| - 1], ev, co)
  }

  /** The last field that assigns a name supplies its value, overwriting
      earlier fields and the default keys. */
  lemma {:induction false} LastFieldWins(doc: Expando, fields: seq<Field>, ev: LogEvent, co: Collaborators, i: nat)
    requires i < |fields| && FieldValue(fields[i], ev, co).Some?
    requires forall j :: i < j < |fields| ==> fields[j].name != fields[i].name || FieldValue(fields[j], ev, co).None?
    ensures Lookup(ApplyFields(doc, fields, ev, co), fields[i].name) == FieldValue(fields[i], ev, co)
  {
    var n := |fields| - 1;
    var prefix := fields[..n];
    var name := fields[i].name;
    var before := ApplyFields(doc, prefix, ev, co);
    var after := ApplyField(before, fields[n], ev, co);
    assert ApplyFields(doc, fields, ev, co) == after;
    if i < n {
      assert prefix[i] == fields[i];
      assert forall j :: i < j < |prefix| ==> prefix[j] == fields[j];
      LastFieldWins(doc, prefix, ev, co, i);
      if fields[n].name != name {
        assert Lookup(after, name) == Lookup(before, name);
      } else {
        assert FieldValue(fields[n], ev, co).None?;
        assert after == before;
      }
    } else {
      assert i == n;
      var v := FieldValue(fields[n], ev, co);
      assert v.Some?;
      assert Lookup(after, fields[n].name) == v;
    }
  }

  /** A key no field assigns keeps the value it had before the fields. */
  lemma {:induction false} UnassignedKeyKept(doc: Expando, fields: seq<Field>, ev: LogEvent, co: Collaborators, k: string)
    requires forall j :: 0 <= j < |fields| ==> fields[j].name != k || FieldValue(fields[j], ev, co).None?
    ensures Lookup(ApplyFields(doc, fields, ev, co), k) == Lookup(doc, k)
  {
    if |fields| > 0 {
      var n := |fields| - 1;
      var prefix := fields[..n];
      assert forall j :: 0 <= j < |prefix| ==> prefix[j] == fields[j];
      UnassignedKeyKept(doc, prefix, ev, co, k);
      assert ApplyFields(doc, fields, ev, co) == ApplyField(ApplyFields(doc, prefix, ev, co), fields[n], ev, co);
    }
  }

  /** Some field named `k` assigns a value. */
  predicate Assigns(fields: seq<Field>, ev: LogEvent, co: Collaborators, k: string) {
    exists j :: 0 <= j < |fields| && fields[j].name == k && FieldValue(fields[j], ev, co).Some?
  }

  /** Every key after the fields was there before or names an assigning field. */
  lemma {:induction false} FieldKeys(doc: Expando, fields: seq<Field>, ev: LogEvent, co: Collaborators, k: string)
    requires k in Keys(ApplyFields(doc, fields, ev, co))
    ensures k in Keys(doc) || Assigns(fields, ev, co, k)
  {
    if |fields| > 0 {
      var n := |fields| - 1;
      var prefix := fields[..n];
      var before := ApplyFields(doc, prefix, ev, co);
      var after := ApplyField(before, fields[n], ev, co);
      assert ApplyFields(doc, fields, ev, co) == after;
      if k in Keys(before) {
        FieldKeys(doc, prefix, ev, co, k);
        if Assigns(prefix, ev, co, k) {
          var j :| 0 <= j < n && prefix[j].name == k && FieldValue(prefix[j], ev, co).Some?;
          assert fields[j] == prefix[j];
        }
      } else {
        assert Lookup(after, k).Some?;
        assert fields[n].name == k && FieldValue(fields[n], ev, co).Some?;
      }
    }
  }

  /** One iteration of the property loop: skip excluded and present keys. */
  function AddProperty(doc: Expando, p: Property, excluded: set<string>): (r: Expando)
    ensures p.key in excluded || p.key in Keys(doc) ==> r == doc
    ensures !(p.key in excluded || p.key in Keys(doc)) ==> r == doc + [Entry(p.key, p.value)]
    ensures |r| >= |doc| && r[..|doc|] == doc
    ensures forall i :: |doc| <= i < |r| ==> r[i] == Entry(p.key, p.value) && p.key !in excluded
    ensures UniqueKeys(doc) ==> UniqueKeys(r)
  {
    if p.key in excluded || p.key in Keys(doc) then doc
    else
      var r := Set(doc, p.key, p.value);
      assert r == doc + [Entry(p.key, p.value)];
      assert r[..|doc|] == doc;
      r
  }

  /** The property loop: it only ever appends entries for new, non-excluded keys. */
  function ApplyProperties(doc: Expando, props: seq<Property>, excluded: set<string>): (r: Expando)
    ensures |r| >= |doc| && r[..|doc|] == doc
    ensures forall i :: |doc| <= i < |r| ==> r[i].key !in excluded && Property(r[i].key, r[i].value) in props
    ensures UniqueKeys(doc) ==> UniqueKeys(r)
  {
    if |props| == 0 then doc
    else
      var n := |props| - 1;
      var p := props[n];
      var before := ApplyProperties(doc, props[..n], excluded);
      assert forall q :: q in props[..n] ==> q in props;
      var r := AddProperty(before, p, excluded);
      assert p in props;
      assert forall i :: |doc| <= i < |before| ==> r[i] == before[i];
      r
  }

  /** Properties never change an entry already in the document. */
  lemma PropertiesNeverOverwrite(doc: Expando, props: seq<Property>, excluded: set<string>, k: string)
    requires k in Keys(doc)
    ensures Lookup(ApplyProperties(doc, props, excluded), k) == Lookup(doc, k)
  {
    var r := ApplyProperties(doc, props, excluded);
    assert r == doc + r[|doc|..];
    LookupExtend(doc, r[|doc|..], k);
  }

  /** Some property carries key `k`. */
  predicate Carries(props: seq<Property>, k: string) {
    exists j :: 0 <= j < |props| && props[j].key == k
  }

  lemma CarriesPrefix(props: seq<Property>, k: string)
    requires |props| > 0
    ensures Carries(props, k) <==> Carries(props[..|props| - 1], k) || props[|props| - 1].key == k
  {
    var n := |props| - 1;
    if Carries(props, k) && props[n].key != k {
      var j :| 0 <= j < |props| && props[j].key == k;
      assert props[..n][j].key == k;
    }
    if Carries(props[..n], k) {
      var j :| 0 <= j < n && props[..n][j].key == k;
      assert props[j].key == k;
    }
  }

  /** A key ends up in the document exactly when it was there already or
      some property carries it and it is not excluded. */
  lemma {:induction false} PropertyKeys(doc: Expando, props: seq<Property>, excluded: set<string>, k: string)
    ensures k in Keys(ApplyProperties(doc, props, excluded)) <==> k in Keys(doc) || (k !in excluded && Carries(props, k))
  {
    if |props| > 0 {
      var n := |props| - 1;
      var before := ApplyProperties(doc, props[..n], excluded);
      PropertyKeys(doc, props[..n], excluded, k);
      CarriesPrefix(props, k);
      var p := props[n];
      assert ApplyProperties(doc, props, excluded) == AddProperty(before, p, excluded);
      if !(p.key in excluded || p.key in Keys(before)) {
        KeysAppend(before, Entry(p.key, p.value), k);
      }
    }
  }

  /** With `ExcludedProperties` left unset or empty, the five default names
      are never copied from event properties. */
  lemma DefaultExclusionsKeptOut(s: Settings, env: string -> Option<string>,
                                 configuration: Option<string> -> Option<string>,
                                 render: (Layout, LogEvent) -> string,
                                 doc: Expando, props: seq<Property>, k: string)
    requires s.excludedProperties.None? || s.excludedProperties.value == ""
    requires k in DefaultExcludedProperties
    ensures var excluded := InitializeTarget(s, DefaultExcludedProperties, env, configuration, render).excludedProperties;
            k in Keys(ApplyProperties(doc, props, excluded)) <==> k in Keys(doc)
  {
    var excluded := InitializeTarget(s, DefaultExcludedProperties, env, configuration, render).excludedProperties;
    assert excluded == DefaultExcludedProperties;
    PropertyKeys(doc, props, excluded, k);
  }

  /** A non-empty `ExcludedProperties` replaces the defaults rather than
      adding to them: a default name it does not list is copied again. */
  lemma ConfiguredExclusionsReplaceDefaults(s: Settings, env: string -> Option<string>,
                                            configuration: Option<string> -> Option<string>,
                                            render: (Layout, LogEvent) -> string,
                                            doc: Expando, props: seq<Property>, k: string)
    requires s.excludedProperties.Some? && s.excludedProperties.value != ""
    requires k in DefaultExcludedProperties && k !in Split(s.excludedProperties.value, ',')
    ensures var excluded := InitializeTarget(s, DefaultExcludedProperties, env, configuration, render).excludedProperties;
            k in Keys(ApplyProperties(doc, props, excluded)) <==> k in Keys(doc) || Carries(props, k)
  {
    var excluded := InitializeTarget(s, DefaultExcludedProperties, env, configuration, render).excludedProperties;
    assert k !in excluded;
    PropertyKeys(doc, props, excluded, k);
  }

  /** Among properties with the same key, the first non-excluded one that
      meets an absent key supplies its value. */
  lemma {:induction false} FirstPropertyWins(doc: Expando, props: seq<Property>, excluded: set<string>, i: nat)
    requires i < |props| && props[i].key !in excluded && props[i].key !in Keys(doc)
    requires forall j :: 0 <= j < i ==> props[j].key != props[i].key
    ensures Lookup(ApplyProperties(doc, props, excluded), props[i].key) == Some(props[i].value)
  {
    var n := |props| - 1;
    var k := props[i].key;
    var before := ApplyProperties(doc, props[..n], excluded);
    var r := AddProperty(before, props[n], excluded);
    assert ApplyProperties(doc, props, excluded) == r;
    assert forall j :: 0 <= j < n ==> props[..n][j] == props[j];
    if i < n {
      FirstPropertyWins(doc, props[..n], excluded, i);
      assert k in Keys(before);
      assert r == before + r[|before|..];
      LookupExtend(before, r[|before|..], k);
    } else {
      PropertyKeys(doc, props[..n], excluded, k);
      assert !Carries(props[..n], k);
      assert r == Set(before, k, props[n].value);
    }
  }

  /** `@timestamp`, `level` and `message`, in that order. */
  function DefaultDocument(t: Target, ev: LogEvent, co: Collaborators): (doc: Expando)
    ensures Keys(doc) == ["@timestamp", "level", "message"]
  {
    [Entry("@timestamp", Time(ev.timeStamp)), Entry("level", Str(ev.levelName)), Entry("message", Str(co.render(t.layout, ev)))]
  }

  /** The exception's structured form, with dots in keys replaced. */
  function ExceptionValue(tree: Expando): (v: Value)
    ensures v.Obj? && Canonical(v.fields)
  {
    Obj(Extensions.ReplaceDotInKeys(tree))
  }

  /** The default keys, then `exception` when the event carries one. */
  function BaseDocument(t: Target, ev: LogEvent, co: Collaborators): (r: Result<Expando, Exn>)
    ensures r.Failure? <==> ev.exception.Some? && co.serializeException(ev.exception.value).Failure?
    ensures r.Failure? ==> r.error == co.serializeException(ev.exception.value).error
    ensures r.Success? && ev.exception.None? ==> r.value == DefaultDocument(t, ev, co)
    ensures r.Success? && ev.exception.Some? ==>
      r.value == DefaultDocument(t, ev, co) + [Entry("exception", ExceptionValue(co.serializeException(ev.exception.value).value))]
    ensures r.Success? ==> UniqueKeys(r.value)
  {
    var doc := DefaultDocument(t, ev, co);
    assert UniqueKeys(doc) by { assert Keys(doc) == ["@timestamp", "level", "message"]; }
    match ev.exception
    case None => Success(doc)
    case Some(e) =>
      match co.serializeException(e)
      case Failure(x) => Failure(x)
      case Success(tree) =>
        assert "exception" !in Keys(doc);
        Success(Set(doc, "exception", ExceptionValue(tree)))
  }

  /** The fields, then, with `IncludeAllProperties` and a non-empty property
      collection, the properties. */
  function FieldsAndProperties(t: Target, ev: LogEvent, co: Collaborators, base: Expando): (doc: Expando)
    ensures |doc| >= |base| && forall i :: 0 <= i < |base| ==> doc[i].key == base[i].key
    ensures UniqueKeys(base) ==> UniqueKeys(doc)
  {
    var withFields := ApplyFields(base, t.fields, ev, co);
    if t.includeAllProperties && |ev.properties| > 0
    then ApplyProperties(withFields, ev.properties, t.excludedProperties)
    else withFields
  }

  /** The document of one event; building it throws only when the
      exception's JSON round trip does. */
  function BuildDocument(t: Target, ev: LogEvent, co: Collaborators): (r: Result<Expando, Exn>)
    ensures r.Failure? <==> ev.exception.Some? && co.serializeException(ev.exception.value).Failure?
    ensures r.Success? ==> UniqueKeys(r.value)
    ensures r.Success? ==> |r.value| >= 3 && r.value[0].key == "@timestamp" && r.value[1].key == "level" && r.value[2].key == "message"
    ensures r.Success? && ev.exception.Some? ==> |r.value| >= 4 && r.value[3].key == "exception"
  {
    match BaseDocument(t, ev, co)
    case Failure(x) => Failure(x)
    case Success(base) => Success(FieldsAndProperties(t, ev, co, base))
  }

  /** A default key that no field assigns keeps its default value, and the
      exception subtree, unless a field assigns `exception`, is the
      dot-free rewrite of the exception's structure. */
  lemma DefaultValuesKept(t: Target, ev: LogEvent, co: Collaborators, k: string)
    requires BuildDocument(t, ev, co).Success?
    requires k in {"@timestamp", "level", "message", "exception"}
    requires forall j :: 0 <= j < |t.fields| ==> t.fields[j].name != k || FieldValue(t.fields[j], ev, co).None?
    ensures k == "@timestamp" ==> Lookup(BuildDocument(t, ev, co).value, k) == Some(Time(ev.timeStamp))
    ensures k == "level" ==> Lookup(BuildDocument(t, ev, co).value, k) == Some(Str(ev.levelName))
    ensures k == "message" ==> Lookup(BuildDocument(t, ev, co).value, k) == Some(Str(co.render(t.layout, ev)))
    ensures k == "exception" && ev.exception.Some? ==>
      Lookup(BuildDocument(t, ev, co).value, k) == Some(ExceptionValue(co.serializeException(ev.exception.value).value))
  {
    var base := BaseDocument(t, ev, co).value;
    var withFields := ApplyFields(base, t.fields, ev, co);
    assert BuildDocument(t, ev, co).value == FieldsAndProperties(t, ev, co, base);
    BaseLookups(t, ev, co, k);
    if k in Keys(base) {
      UnassignedKeyKept(base, t.fields, ev, co, k);
      assert k in Keys(withFields);
      if t.includeAllProperties && |ev.properties| > 0 {
        PropertiesNeverOverwrite(withFields, ev.properties, t.excludedProperties, k);
      }
      assert Lookup(FieldsAndProperties(t, ev, co, base), k) == Lookup(base, k);
    }
  }

  /** The values of the default keys, and of `exception`, before the fields. */
  lemma BaseLookups(t: Target, ev: LogEvent, co: Collaborators, k: string)
    requires BaseDocument(t, ev, co).Success?
    requires k in {"@timestamp", "level", "message", "exception"}
    ensures k != "exception" || ev.exception.Some? ==> k in Keys(BaseDocument(t, ev, co).value)
    ensures k == "@timestamp" ==> Lookup(BaseDocument(t, ev, co).value, k) == Some(Time(ev.timeStamp))
    ensures k == "level" ==> Lookup(BaseDocument(t, ev, co).value, k) == Some(Str(ev.levelName))
    ensures k == "message" ==> Lookup(BaseDocument(t, ev, co).value, k) == Some(Str(co.render(t.layout, ev)))
    ensures k == "exception" && ev.exception.Some? ==>
      Lookup(BaseDocument(t, ev, co).value, k) == Some(ExceptionValue(co.serializeException(ev.exception.value).value))
  {
    var base := BaseDocument(t, ev, co).value;
    var doc := DefaultDocument(t, ev, co);
    assert base[..3] == doc;
    if k != "exception" {
      var i := if k == "@timestamp" then 0 else if k == "level" then 1 else 2;
      assert base[i] == doc[i];
      assert Keys(base)[i] == k;
    } else if ev.exception.Some? {
      assert base[3].key == "exception";
      assert Keys(base)[3] == k;
    }
  }

  /** Without `IncludeAllProperties`, every key is a default key, `exception`
      or the name of a field that assigned a value. */
  lemma NoPropertiesUnlessIncluded(t: Target, ev: LogEvent, co: Collaborators, k: string)
    requires BuildDocument(t, ev, co).Success? && !t.includeAllProperties
    requires k in Keys(BuildDocument(t, ev, co).value)
    ensures k in {"@timestamp", "level", "message", "exception"}
            || exists j :: 0 <= j < |t.fields| && t.fields[j].name == k && FieldValue(t.fields[j], ev, co).Some?
  {
    var base := BaseDocument(t, ev, co).value;
    FieldKeys(base, t.fields, ev, co, k);
  }

  /** With `IncludeAllProperties`, a property whose key is not excluded, not
      already in the document and not carried by an earlier property is
      added with its own value. */
  lemma PropertyAdded(t: Target, ev: LogEvent, co: Collaborators, i: nat)
    requires BuildDocument(t, ev, co).Success? && t.includeAllProperties
    requires i < |ev.properties|
    requires ev.properties[i].key !in t.excludedProperties
    requires ev.properties[i].key !in Keys(ApplyFields(BaseDocument(t, ev, co).value, t.fields, ev, co))
    requires forall j :: 0 <= j < i ==> ev.properties[j].key != ev.properties[i].key
    ensures Lookup(BuildDocument(t, ev, co).value, ev.properties[i].key) == Some(ev.properties[i].value)
  {
    var withFields := ApplyFields(BaseDocument(t, ev, co).value, t.fields, ev, co);
    FirstPropertyWins(withFields, ev.properties, t.excludedProperties, i);
  }

  // ---------------------------------------------------------------------
  // Index metadata and the payload

  /** `{ index = { _index, _type[, pipeline] } }`, with the index name
      lower-cased. */
  function Metadata(t: Target, ev: LogEvent, co: Collaborators): (meta: Expando)
    ensures Keys(meta) == ["index"] && meta[0].value.Obj?
    ensures var info := meta[0].value.fields;
      && |info| >= 2 && info[0] == Entry("_index", Str(ToLowerInvariant(co.render(t.index, ev))))
      && info[1] == Entry("_type", Str(co.render(t.documentType, ev)))
      && (t.pipeline.None? ==> |info| == 2)
      && (t.pipeline.Some? ==> info[2..] == [Entry("pipeline", Str(co.render(t.pipeline.value, ev)))])
  {
    var index := ToLowerInvariant(co.render(t.index, ev));
    var docType := co.render(t.documentType, ev);
    var info :=
      if t.pipeline.None? then [Entry("_index", Str(index)), Entry("_type", Str(docType))]
      else [Entry("_index", Str(index)), Entry("_type", Str(docType)), Entry("pipeline", Str(co.render(t.pipeline.value, ev)))];
    [Entry("index", Obj(info))]
  }

  /** The index name is the rendered index with every upper-case letter
      lowered: it agrees with the rendering up to case and holds no capital. */
  lemma MetadataIndexLowerCase(t: Target, ev: LogEvent, co: Collaborators)
    ensures var index := Metadata(t, ev, co)[0].value.fields[0].value;
      && index.Str?
      && EqualsIgnoreCase(index.s, co.render(t.index, ev))
      && forall i :: 0 <= i < |index.s| ==> !('A' <= index.s[i] <= 'Z')
  {
    ToLowerIdempotent(co.render(t.index, ev));
  }

  /** The payload loop for any per-event metadata and document builder:
      metadata then document, per event, in event order, stopping at the
      first document that cannot be built. */
  function Interleave<E>(events: seq<E>, meta: E -> Expando, build: E -> Result<Expando, Exn>): (r: Result<seq<Expando>, Exn>)
    ensures r.Success? <==> forall i :: 0 <= i < |events| ==> build(events[i]).Success?
    ensures r.Success? ==> |r.value| == 2 * |events|
    ensures r.Success? ==> forall i :: 0 <= i < |events| ==>
      r.value[2 * i] == meta(events[i]) && r.value[2 * i + 1] == build(events[i]).value
    ensures r.Failure? ==>
      exists k ::
        && 0 <= k < |events|
        && build(events[k]) == Failure(r.error)
        && forall j :: 0 <= j < k ==> build(events[j]).Success?
  {
    if |events| == 0 then Success([])
    else
      var n := |events| - 1;
      var prefix := events[..n];
      assert forall i :: 0 <= i < n ==> prefix[i] == events[i];
      match Interleave(prefix, meta, build)
      case Failure(x) => Failure(x)
      case Success(payload) =>
        match build(events[n])
        case Failure(x) => Failure(x)
        case Success(doc) =>
          var r := payload + [meta(events[n]), doc];
          assert forall i :: 0 <= i < n ==> r[2 * i] == payload[2 * i] && r[2 * i + 1] == payload[2 * i + 1];
          Success(r)
  }

  /** `FormPayload`: metadata then document, per event, in event order; the
      first event whose document cannot be built aborts the whole payload. */
  function FormPayload(t: Target, co: Collaborators, events: seq<LogEvent>): (r: Result<seq<Expando>, Exn>)
    ensures r.Success? <==> forall i :: 0 <= i < |events| ==> BuildDocument(t, events[i], co).Success?
    ensures r.Success? ==> |r.value| == 2 * |events|
    ensures r.Success? ==> forall i :: 0 <= i < |events| ==>
      r.value[2 * i] == Metadata(t, events[i], co) && r.value[2 * i + 1] == BuildDocument(t, events[i], co).value
    ensures r.Failure? ==>
      exists k ::
        && 0 <= k < |events|
        && BuildDocument(t, events[k], co) == Failure(r.error)
        && forall j :: 0 <= j < k ==> BuildDocument(t, events[j], co).Success?
  {
    Interleave(events, ev => Metadata(t, ev, co), ev => BuildDocument(t, ev, co))
  }

  // ---------------------------------------------------------------------
  // SendBatch

  /** What the bulk call does: throw, or return a response. */
  datatype BulkOutcome =
    | Threw(exception: Exn)
    | Responded(success: bool, originalException: Option<Exn>, httpStatusCode: Option<int>)

  /** A pending event and its continuation; the continuation returns the
      exception it throws, if it throws. */
  datatype BatchItem = BatchItem(event: LogEvent, continuation: Option<Exn> -> Option<Exn>)

  /** One call of a continuation: whose, and with what argument. */
  datatype Invocation = Invocation(item: nat, argument: Option<Exn>)

  /** The continuation calls in order, the exceptions logged, and the
      exception escaping `SendBatch`, if any. */
  datatype Dispatch = Dispatch(calls: seq<Invocation>, logged: seq<Exn>, escaped: Option<Exn>)

  const NoErrorMessage := Exn(ExceptionType, "No error message. Enable Trace logging for more information.", [])

  function Events(items: seq<BatchItem>): (events: seq<LogEvent>)
    ensures |events| == |items| && forall i :: 0 <= i < |items| ==> events[i] == items[i].event
  {
    seq(|items|, i requires 0 <= i < |items| => items[i].event)
  }

  /** The exception a response stands for: none on success, else the
      client's original exception, else a synthesized one. */
  function ResponseException(success: bool, originalException: Option<Exn>): (r: Option<Exn>)
    ensures r.None? <==> success
    ensures !success && originalException.Some? ==> r == originalException
    ensures !success && originalException.None? ==> r == Some(NoErrorMessage)
  {
    if success then None else Some(originalException.GetOr(NoErrorMessage))
  }

  /** The one value every continuation receives when none of them throws:
      the exception thrown while building the payload or by the bulk call,
      or the response's exception. */
  function BatchOutcome(payload: Result<seq<Expando>, Exn>, bulk: seq<Expando> -> BulkOutcome): (r: Option<Exn>)
    ensures r.None? <==> payload.Success? && bulk(payload.value).Responded? && bulk(payload.value).success
    ensures payload.Failure? ==> r == Some(payload.error)
    ensures payload.Success? && bulk(payload.value).Threw? ==> r == Some(bulk(payload.value).exception)
    ensures payload.Success? && bulk(payload.value).Responded? ==>
      r == ResponseException(bulk(payload.value).success, bulk(payload.value).originalException)
  {
    match payload
    case Failure(x) => Some(x)
    case Success(p) =>
      match bulk(p)
      case Threw(x) => Some(x)
      case Responded(success, original, _) => ResponseException(success, original)
  }

  datatype Notified = Notified(calls: seq<Invocation>, thrown: Option<Exn>)

  /** `foreach (var ev in logEvents) ev.Continuation(argument)` from position
      `from`: stops at the first continuation that throws. */
  function NotifyAll(items: seq<BatchItem>, argument: Option<Exn>, from: nat): (n: Notified)
    requires from <= |items|
    ensures |n.calls| <= |items| - from
    ensures forall i :: 0 <= i < |n.calls| ==> n.calls[i] == Invocation(from + i, argument)
    ensures n.thrown.None? <==> |n.calls| == |items| - from && forall i :: from <= i < |items| ==> items[i].continuation(argument).None?
    ensures n.thrown.Some? ==>
              && |n.calls| > 0
              && n.thrown == items[from + |n.calls| - 1].continuation(argument)
              && forall i :: from <= i < from + |n.calls| - 1 ==> items[i].continuation(argument).None?
    decreases |items| - from
  {
    if from == |items| then Notified([], None)
    else
      var thrown := items[from].continuation(argument);
      if thrown.Some? then Notified([Invocation(from, argument)], thrown)
      else
        var rest := NotifyAll(items, argument, from + 1);
        Notified([Invocation(from, argument)] + rest.calls, rest.thrown)
  }

  /** The catch block: log, then notify every continuation of the exception. */
  function Catch(calls: seq<Invocation>, logged: seq<Exn>, exception: Exn, items: seq<BatchItem>): (d: Dispatch)
    ensures d.logged == logged + [FlattenToActualException(exception)]
    ensures |calls| <= |d.calls| <= |calls| + |items| && d.calls[..|calls|] == calls
    ensures forall i :: |calls| <= i < |d.calls| ==> d.calls[i] == Invocation(i - |calls|, Some(exception))
    ensures d.escaped.None? <==>
      |d.calls| == |calls| + |items| && forall i :: 0 <= i < |items| ==> items[i].continuation(Some(exception)).None?
    ensures d.escaped.Some? ==>
      && |d.calls| > |calls|
      && d.escaped == items[|d.calls| - |calls| - 1].continuation(Some(exception))
      && forall i :: 0 <= i < |d.calls| - |calls| - 1 ==> items[i].continuation(Some(exception)).None?
    ensures ContinuationsReturn(items) ==> d.escaped.None? && |d.calls| == |calls| + |items|
  {
    var n := NotifyAll(items, Some(exception), 0);
    Dispatch(calls + n.calls, logged + [FlattenToActualException(exception)], n.thrown)
  }

  /** No continuation ever throws. */
  ghost predicate ContinuationsReturn(items: seq<BatchItem>) {
    forall i, a :: 0 <= i < |items| ==> items[i].continuation(a).None?
  }

  /** The try and catch blocks of `SendBatch`, as written, given what
      building the payload gave: the try block covers the bulk call and the
      success-path notifications, so a continuation that throws there sends
      every continuation into the catch block's notifications. */
  function SendPayload(payload: Result<seq<Expando>, Exn>, bulk: seq<Expando> -> BulkOutcome, items: seq<BatchItem>): (d: Dispatch)
    ensures ContinuationsReturn(items) ==>
      && d.escaped.None?
      && |d.calls| == |items|
      && forall i :: 0 <= i < |items| ==> d.calls[i] == Invocation(i, BatchOutcome(payload, bulk))
    ensures ContinuationsReturn(items) ==>
      (d.logged == [] <==> BatchOutcome(payload, bulk).None?)
      && (BatchOutcome(payload, bulk).Some? ==> d.logged == [FlattenToActualException(BatchOutcome(payload, bulk).value)])
  {
    match payload
    case Failure(x) => Catch([], [], x, items)
    case Success(p) =>
      match bulk(p)
      case Threw(x) => Catch([], [], x, items)
      case Responded(success, original, _) =>
        var exception := ResponseException(success, original);
        var logged := if exception.Some? then [FlattenToActualException(exception.value)] else [];
        var n := NotifyAll(items, exception, 0);
        if n.thrown.None? then Dispatch(n.calls, logged, None)
        else Catch(n.calls, logged, n.thrown.value, items)
  }

  /** `SendBatch`: the payload is built inside the try block, so a document
      that cannot be built is reported to every continuation like a failed
      bulk call. */
  function SendBatch(t: Target, co: Collaborators, bulk: seq<Expando> -> BulkOutcome, items: seq<BatchItem>): (d: Dispatch)
    ensures ContinuationsReturn(items) ==>
      && d.escaped.None?
      && |d.calls| == |items|
      && forall i :: 0 <= i < |items| ==> d.calls[i] == Invocation(i, BatchOutcome(FormPayload(t, co, Events(items)), bulk))
    ensures ContinuationsReturn(items) && FormPayload(t, co, Events(items)).Failure? ==>
      d.logged == [FlattenToActualException(FormPayload(t, co, Events(items)).error)]
  {
    SendPayload(FormPayload(t, co, Events(items)), bulk, items)
  }

  /** The notification loop stops right after the first continuation that throws. */
  lemma {:induction false} NotifyAllStopsAt(items: seq<BatchItem>, argument: Option<Exn>, from: nat, j: nat)
    requires from <= j < |items| && items[j].continuation(argument).Some?
    requires forall i :: from <= i < j ==> items[i].continuation(argument).None?
    ensures |NotifyAll(items, argument, from).calls| == j + 1 - from
    ensures NotifyAll(items, argument, from).thrown == items[j].continuation(argument)
    decreases j - from
  {
    if from < j {
      NotifyAllStopsAt(items, argument, from + 1, j);
    }
  }

  /** As written, a continuation that throws on the success path makes the
      continuations before it run a second time, now with its exception: the
      first continuation always runs twice. */
  lemma ThrowingContinuationReinvokes(payload: Result<seq<Expando>, Exn>, bulk: seq<Expando> -> BulkOutcome,
                                      items: seq<BatchItem>, j: nat, e: Exn)
    requires payload.Success? && bulk(payload.value).Responded?
    requires var x := BatchOutcome(payload, bulk);
      && j < |items| && items[j].continuation(x) == Some(e)
      && forall i :: 0 <= i < j ==> items[i].continuation(x).None?
    ensures var d := SendPayload(payload, bulk, items);
      && |d.calls| >= j + 2
      && d.calls[0] == Invocation(0, BatchOutcome(payload, bulk))
      && d.calls[j + 1] == Invocation(0, Some(e))
  {
    NotifyAllStopsAt(items, BatchOutcome(payload, bulk), 0, j);
  }

  /** A bulk call that succeeds. */
  const Accepted: seq<Expando> -> BulkOutcome := (p: seq<Expando>) => Responded(true, None, Some(200))

  /** A continuation that always throws `e`. */
  function Throwing(e: Exn): Option<Exn> -> Option<Exn> {
    (a: Option<Exn>) => Some(e)
  }

  /** Any payload that reaches a successful bulk call, with one continuation
      that throws: that continuation is called twice and its exception escapes. */
  lemma ThrowingContinuationRunsTwice(payload: Result<seq<Expando>, Exn>, ev: LogEvent, e: Exn)
    requires payload.Success?
    ensures var d := SendPayload(payload, Accepted, [BatchItem(ev, Throwing(e))]);
      d.calls == [Invocation(0, None), Invocation(0, Some(e))] && d.escaped == Some(e)
  {
    var items := [BatchItem(ev, Throwing(e))];
    assert BatchOutcome(payload, Accepted) == None;
    assert NotifyAll(items, None, 0) == Notified([Invocation(0, None)], Some(e));
    assert NotifyAll(items, Some(e), 0) == Notified([Invocation(0, Some(e))], Some(e));
  }

  /** A one-event instance: the event carries no exception, so its document
      builds; the response is a success and the continuation throws the first
      time, so it is called twice and the exception escapes `SendBatch`. */
  lemma DoubleInvocationWitness(t: Target, co: Collaborators, ev: LogEvent, e: Exn)
    requires ev.exception.None?
    ensures var d := SendBatch(t, co, Accepted, [BatchItem(ev, Throwing(e))]);
      d.calls == [Invocation(0, None), Invocation(0, Some(e))] && d.escaped == Some(e)
  {
    var items := [BatchItem(ev, Throwing(e))];
    assert Events(items) == [ev];
    var payload := FormPayload(t, co, [ev]);
    assert payload.Success? by { assert BuildDocument(t, [ev][0], co).Success?; }
    ThrowingContinuationRunsTwice(payload, ev, e);
  }

  // ---------------------------------------------------------------------
  // SendBatch as intended: every continuation exactly once

  /** Notifies every continuation from `from`; an exception a continuation
      throws is logged and the remaining continuations still run. */
  function NotifyEach(items: seq<BatchItem>, argument: Option<Exn>, from: nat): (n: Dispatch)
    requires from <= |items|
    ensures |n.calls| == |items| - from
    ensures forall i :: 0 <= i < |n.calls| ==> n.calls[i] == Invocation(from + i, argument)
    ensures n.escaped.None?
    decreases |items| - from
  {
    if from == |items| then Dispatch([], [], None)
    else
      var thrown := items[from].continuation(argument);
      var rest := NotifyEach(items, argument, from + 1);
      Dispatch([Invocation(from, argument)] + rest.calls,
               (if thrown.Some? then [FlattenToActualException(thrown.value)] else []) + rest.logged, None)
  }

  /** The try block ending before the notifications: the continuations are
      resolved once, outside it, whatever they do. */
  function SendPayloadOnce(payload: Result<seq<Expando>, Exn>, bulk: seq<Expando> -> BulkOutcome, items: seq<BatchItem>): (d: Dispatch)
    ensures d.escaped.None?
    ensures |d.calls| == |items|
    ensures forall i :: 0 <= i < |items| ==> d.calls[i] == Invocation(i, BatchOutcome(payload, bulk))
  {
    var outcome := BatchOutcome(payload, bulk);
    var n := NotifyEach(items, outcome, 0);
    Dispatch(n.calls, (if outcome.Some? then [FlattenToActualException(outcome.value)] else []) + n.logged, None)
  }

  /** When no continuation throws, the corrected dispatch makes the same
      calls, and lets the same exception escape, as the code as written. */
  lemma SendPayloadOnceRefines(payload: Result<seq<Expando>, Exn>, bulk: seq<Expando> -> BulkOutcome, items: seq<BatchItem>)
    requires ContinuationsReturn(items)
    ensures SendPayloadOnce(payload, bulk, items).calls == SendPayload(payload, bulk, items).calls
    ensures SendPayloadOnce(payload, bulk, items).escaped == SendPayload(payload, bulk, items).escaped
  {
  }
}

=== FILE: exception_extensions.dfy ===
/** Collapsing aggregate exceptions before they are logged. The
    `AggregateException.Flatten` it relies on walks nested aggregates
    breadth-first: a queue of aggregates, each contributing its
    non-aggregate inner exceptions to the result in order and its
    aggregate ones to the back of the queue. */
module ExceptionExtensions {
  import opened Clr

  function Size(e: Exn): nat {
    1 + SizeOf(e.innerExceptions)
  }

  function SizeOf(es: seq<Exn>): nat
    decreases es
  {
    if |es| == 0 then 0 else Size(es[0]) + SizeOf(es[1..])
  }

  lemma {:induction false} SizeOfAppend(a: seq<Exn>, b: seq<Exn>)
    ensures SizeOf(a + b) == SizeOf(a) + SizeOf(b)
  {
    if |a| == 0 {
      assert a + b == b;
    } else {
      assert (a + b)[0] == a[0];
      assert (a + b)[1..] == a[1..] + b;
      SizeOfAppend(a[1..], b);
    }
  }

  /** The non-aggregate exceptions of `es`, in order. */
  function NonAggregates(es: seq<Exn>): (r: seq<Exn>)
    ensures forall x :: x in r ==> x in es && !IsAggregate(x)
  {
    if |es| == 0 then []
    else (if IsAggregate(es[0]) then [] else [es[0]]) + NonAggregates(es[1..])
  }

  /** The aggregate exceptions of `es`, in order. */
  function Aggregates(es: seq<Exn>): (r: seq<Exn>)
    ensures SizeOf(r) <= SizeOf(es)
  {
    if |es| == 0 then []
    else
      var rest := Aggregates(es[1..]);
      assert SizeOf(es) == Size(es[0]) + SizeOf(es[1..]);
      if IsAggregate(es[0]) then
        SizeOfAppend([es[0]], rest);
        assert SizeOf([es[0]]) == Size(es[0]) + SizeOf([]);
        [es[0]] + rest
      else rest
  }

  /** The breadth-first walk of `Flatten` over a queue of aggregates. */
  function BreadthFirstLeaves(queue: seq<Exn>): (r: seq<Exn>)
    ensures forall x :: x in r ==> !IsAggregate(x)
    decreases SizeOf(queue)
  {
    if |queue| == 0 then []
    else
      var inner := queue[0].innerExceptions;
      SizeOfAppend(queue[1..], Aggregates(inner));
      assert SizeOf(queue) == 1 + SizeOf(inner) + SizeOf(queue[1..]);
      NonAggregates(inner) + BreadthFirstLeaves(queue[1..] + Aggregates(inner))
  }

  /** `AggregateException.Flatten`: a new aggregate with the same message
      whose inner exceptions are all the non-aggregate leaves. */
  function Flatten(aggregate: Exn): (r: Exn)
    ensures IsAggregate(r) && r.message == aggregate.message
    ensures forall x :: x in r.innerExceptions ==> !IsAggregate(x)
  {
    Exn(AggregateExceptionType, aggregate.message, BreadthFirstLeaves([aggregate]))
  }

  /** A non-aggregate exception as it is; an aggregate with one leaf as that
      leaf; any other aggregate as its flattened form. */
  function FlattenToActualException(exception: Exn): (r: Exn)
    ensures !IsAggregate(exception) ==> r == exception
    ensures IsAggregate(exception) && |Flatten(exception).innerExceptions| == 1 ==>
      r == Flatten(exception).innerExceptions[0] && !IsAggregate(r)
    ensures IsAggregate(exception) && |Flatten(exception).innerExceptions| != 1 ==>
      IsAggregate(r) && r.message == exception.message
      && multiset(r.innerExceptions) == multiset(Leaves(exception))
      && forall x :: x in r.innerExceptions ==> !IsAggregate(x)
  {
    if !IsAggregate(exception) then exception
    else
      var flattened := Flatten(exception);
      FlattenCollectsLeaves(exception);
      if |flattened.innerExceptions| == 1 then
        assert flattened.innerExceptions[0] in flattened.innerExceptions;
        flattened.innerExceptions[0]
      else flattened
  }

  // ---------------------------------------------------------------------
  // Reference definition: the leaves of the exception tree, depth-first

  /** Every non-aggregate exception reachable through aggregates, in
      depth-first order. */
  function Leaves(e: Exn): seq<Exn>
    decreases e, 1
  {
    if IsAggregate(e) then LeavesOf(e.innerExceptions) else [e]
  }

  function LeavesOf(es: seq<Exn>): seq<Exn>
    decreases es, 0
  {
    if |es| == 0 then [] else Leaves(es[0]) + LeavesOf(es[1..])
  }

  /** The leaves below each queued aggregate, in queue order. */
  function QueuedLeaves(queue: seq<Exn>): seq<Exn> {
    if |queue| == 0 then [] else LeavesOf(queue[0].innerExceptions) + QueuedLeaves(queue[1..])
  }

  lemma {:induction false} QueuedLeavesAppend(a: seq<Exn>, b: seq<Exn>)
    ensures QueuedLeaves(a + b) == QueuedLeaves(a) + QueuedLeaves(b)
  {
    if |a| == 0 {
      assert a + b == b;
    } else {
      assert (a + b)[0] == a[0];
      assert (a + b)[1..] == a[1..] + b;
      QueuedLeavesAppend(a[1..], b);
    }
  }

  /** The leaves of a list split into its own non-aggregates and the leaves
      of its aggregates. */
  lemma {:induction false} LeavesOfSplit(es: seq<Exn>)
    ensures multiset(LeavesOf(es)) == multiset(NonAggregates(es)) + multiset(QueuedLeaves(Aggregates(es)))
  {
    if |es| > 0 {
      var x, rest := es[0], es[1..];
      LeavesOfSplit(rest);
      assert LeavesOf(es) == Leaves(x) + LeavesOf(rest);
      if IsAggregate(x) {
        assert NonAggregates(es) == NonAggregates(rest);
        assert Aggregates(es) == [x] + Aggregates(rest);
        QueuedLeavesAppend([x], Aggregates(rest));
        assert QueuedLeaves([x]) == Leaves(x) by {
          assert QueuedLeaves([x]) == LeavesOf(x.innerExceptions) + QueuedLeaves([]);
        }
      } else {
        assert NonAggregates(es) == [x] + NonAggregates(rest);
        assert Aggregates(es) == Aggregates(rest);
        assert Leaves(x) == [x];
      }
    }
  }

  /** The breadth-first walk finds exactly the depth-first leaves, possibly
      in another order. */
  lemma {:induction false} BreadthFirstIsPermutation(queue: seq<Exn>)
    ensures multiset(BreadthFirstLeaves(queue)) == multiset(QueuedLeaves(queue))
    decreases SizeOf(queue)
  {
    if |queue| > 0 {
      var inner := queue[0].innerExceptions;
      SizeOfAppend(queue[1..], Aggregates(inner));
      assert SizeOf(queue) == 1 + SizeOf(inner) + SizeOf(queue[1..]);
      BreadthFirstIsPermutation(queue[1..] + Aggregates(inner));
      QueuedLeavesAppend(queue[1..], Aggregates(inner));
      LeavesOfSplit(inner);
    }
  }

  /** `Flatten` keeps every leaf exactly once and nothing else. */
  lemma FlattenCollectsLeaves(aggregate: Exn)
    requires IsAggregate(aggregate)
    ensures multiset(Flatten(aggregate).innerExceptions) == multiset(Leaves(aggregate))
  {
    BreadthFirstIsPermutation([aggregate]);
    assert QueuedLeaves([aggregate]) == LeavesOf(aggregate.innerExceptions) + QueuedLeaves([]);
  }

  /** Without nested aggregates, flattening keeps the inner exceptions in order. */
  lemma {:induction false} FlattenShallowKeepsOrder(aggregate: Exn)
    requires forall x :: x in aggregate.innerExceptions ==> !IsAggregate(x)
    ensures Flatten(aggregate).innerExceptions == aggregate.innerExceptions
  {
    var inner := aggregate.innerExceptions;
    NoAggregates(inner);
    assert BreadthFirstLeaves([aggregate]) == NonAggregates(inner) + BreadthFirstLeaves([aggregate][1..] + []);
    assert [aggregate][1..] + [] == [];
  }

  lemma {:induction false} NoAggregates(es: seq<Exn>)
    requires forall x :: x in es ==> !IsAggregate(x)
    ensures NonAggregates(es) == es && Aggregates(es) == []
  {
    if |es| > 0 {
      assert es[0] in es;
      assert forall x :: x in es[1..] ==> x in es;
      NoAggregates(es[1..]);
      assert [es[0]] + es[1..] == es;
    }
  }

  /** Collapsing an already collapsed exception changes nothing. */
  lemma FlattenToActualExceptionIdempotent(exception: Exn)
    ensures FlattenToActualException(FlattenToActualException(exception)) == FlattenToActualException(exception)
  {
    var r := FlattenToActualException(exception);
    if IsAggregate(r) {
      FlattenShallowKeepsOrder(r);
      assert r.runtimeType == AggregateExceptionType;
    }
  }
}

=== FILE: expando_object_extensions.dfy ===
/** The newer dot-replacing rewrite of ExpandoObject trees. With
    `alwaysCloneObject` false it first scans the top level and hands back the
    input object itself when nothing there needs rewriting; the first entry
    that does (a null value, a nested object or a dotted key) restarts the
    whole rewrite in cloning mode. */
module ExpandoObjectExtensions {
  import opened Wrappers
  import opened Values
  import Extensions

  /** The rewritten object, and whether it is the input instance itself
      (`true`) or a newly built clone (`false`). */
  datatype Rewrite = Rewrite(obj: Expando, reused: bool)

  /** Nothing at the top level of `obj` needs rewriting. */
  predicate NeedsNoRewrite(obj: Expando) {
    forall e | e in obj :: !e.value.Null? && !e.value.Obj? && '.' !in e.key
  }

  function ReplaceDotInKeys(obj: Expando, alwaysCloneObject: bool): (r: Rewrite)
    ensures alwaysCloneObject ==> !r.reused
    decreases obj, if alwaysCloneObject then 0 else 1, 1
  {
    Walk(obj, 0, if alwaysCloneObject then Some([]) else None)
  }

  /** The loop over the entries from position `i`; `clone` is null when
      the object is only being scanned. */
  function Walk(obj: Expando, i: nat, clone: Option<Expando>): (r: Rewrite)
    requires i <= |obj|
    ensures clone.Some? ==> !r.reused
    decreases obj, if clone.Some? then 0 else 1, 0, |obj| - i
  {
    if i == |obj| then
      (match clone
       case None => Rewrite(obj, true)
       case Some(c) => Rewrite(c, false))
    else
      var item := obj[i];
      match item.value
      case Null =>
        if clone.None? then ReplaceDotInKeys(obj, true)
        else Walk(obj, i + 1, clone)
      case Obj(nested) =>
        if clone.None? then ReplaceDotInKeys(obj, true)
        else Walk(obj, i + 1, Some(Set(clone.value, Underscored(item.key), Obj(ReplaceDotInKeys(nested, true).obj))))
      case _ =>
        if '.' in item.key then
          if clone.None? then ReplaceDotInKeys(obj, true)
          else Walk(obj, i + 1, Some(Set(clone.value, Underscored(item.key), item.value)))
        else if clone.Some? then Walk(obj, i + 1, Some(Set(clone.value, item.key, item.value)))
        else Walk(obj, i + 1, clone)
  }

  /** The cloning loop builds, entry by entry, what the always-cloning
      rewrite builds. */
  lemma {:induction false} CloningWalkAgrees(obj: Expando, i: nat)
    requires i <= |obj|
    ensures Walk(obj, i, Some(Extensions.ReplaceDotInKeys(obj[..i]))) == Rewrite(Extensions.ReplaceDotInKeys(obj), false)
    decreases obj, 0, |obj| - i
  {
    if i < |obj| {
      var acc := Extensions.ReplaceDotInKeys(obj[..i]);
      var item := obj[i];
      assert obj[..i + 1][..i] == obj[..i];
      assert Extensions.ReplaceDotInKeys(obj[..i + 1]) == Extensions.CopyItem(acc, item);
      if item.value.Obj? {
        assert item in obj;
        CloningAgrees(item.value.fields);
      }
      CloningWalkAgrees(obj, i + 1);
    } else {
      assert obj[..i] == obj;
    }
  }

  /** In cloning mode both versions build the same tree. */
  lemma {:induction false} CloningAgrees(obj: Expando)
    ensures ReplaceDotInKeys(obj, true) == Rewrite(Extensions.ReplaceDotInKeys(obj), false)
    decreases obj, 1
  {
    assert obj[..0] == [];
    CloningWalkAgrees(obj, 0);
  }

  /** The scan returns the input itself exactly when no top-level entry
      needs rewriting, and otherwise the full clone. */
  lemma {:induction false} ScanningWalk(obj: Expando, i: nat)
    requires i <= |obj|
    requires forall j :: 0 <= j < i ==> !obj[j].value.Null? && !obj[j].value.Obj? && '.' !in obj[j].key
    ensures NeedsNoRewrite(obj) ==> Walk(obj, i, None) == Rewrite(obj, true)
    ensures !NeedsNoRewrite(obj) ==> Walk(obj, i, None) == Rewrite(Extensions.ReplaceDotInKeys(obj), false)
    decreases |obj| - i
  {
    if i == |obj| {
      assert NeedsNoRewrite(obj) by {
        forall e | e in obj ensures !e.value.Null? && !e.value.Obj? && '.' !in e.key {
          var j :| 0 <= j < |obj| && obj[j] == e;
        }
      }
    } else {
      var item := obj[i];
      if item.value.Null? || item.value.Obj? || '.' in item.key {
        assert item in obj;
        CloningAgrees(obj);
      } else {
        ScanningWalk(obj, i + 1);
      }
    }
  }

  /** The input instance is handed back exactly when cloning is not forced
      and nothing at the top level needs rewriting; the result is then the
      input itself. */
  lemma ReusedExactlyWhenClean(obj: Expando, alwaysCloneObject: bool)
    ensures ReplaceDotInKeys(obj, alwaysCloneObject).reused <==> !alwaysCloneObject && NeedsNoRewrite(obj)
    ensures ReplaceDotInKeys(obj, alwaysCloneObject).reused ==> ReplaceDotInKeys(obj, alwaysCloneObject).obj == obj
  {
    if alwaysCloneObject {
      CloningAgrees(obj);
    } else {
      ScanningWalk(obj, 0);
    }
  }

  /** Whatever the flag, the result is structurally the always-cloning
      rewrite of the older helper, so the two versions and the two modes
      agree up to structure. Dictionary keys are unique, which the reuse
      path needs. */
  lemma {:induction false} ModesAgree(obj: Expando, alwaysCloneObject: bool)
    requires UniqueKeys(obj)
    ensures ReplaceDotInKeys(obj, alwaysCloneObject).obj == Extensions.ReplaceDotInKeys(obj)
  {
    if alwaysCloneObject {
      CloningAgrees(obj);
    } else {
      ScanningWalk(obj, 0);
      if NeedsNoRewrite(obj) {
        CleanObjectIsCanonical(obj);
        Extensions.CanonicalFixpoint(obj);
      }
    }
  }

  lemma CleanObjectIsCanonical(obj: Expando)
    requires UniqueKeys(obj) && NeedsNoRewrite(obj)
    ensures Canonical(obj)
  {
  }

  /** In cloning mode no key contains a dot, no value is null and no key
      repeats, in the object and in every object nested in it as a value;
      list contents are not rewritten. */
  lemma CloneIsCanonical(obj: Expando)
    ensures Canonical(ReplaceDotInKeys(obj, true).obj)
  {
    CloningAgrees(obj);
  }
}

=== FILE: extensions.dfy ===
/** The older helper class of the target: the type-name dispatch used to
    convert rendered field text, the connection-string lookup, and the
    always-cloning dot-replacing rewrite of ExpandoObject trees. */
module Extensions {
  import opened Wrappers
  import opened Clr
  import opened Values
  import opened Strings
  import opened SystemConvert
  import StringExtensions

  /** The legacy copy of `StringExtensions.ToSystemType`: the two bodies
      are the same type-name dispatch, so this one is defined as the other
      and carries the same contract. Any type other than the five
      convertible ones leaves the text as it is. */
  function ToSystemType(field: string, t: ClrType, p: Parsers): (r: Result<Value, ConversionError>)
    ensures t.fullName !in ConvertibleTypeNames ==> r == Success(Str(field))
    ensures t.fullName == BooleanTypeName ==>
      && (r.Success? ==> r.value.Bool?)
      && (r.Success? <==> ParseBoolean(field).Some?)
    ensures t.fullName == Int32TypeName ==>
      && (r.Success? ==> r.value.I32? && InInt32Range(r.value.i))
      && (ParseInteger(field).Some? && !InInt32Range(ParseInteger(field).value) ==> r == Failure(OverflowError))
      && (ParseInteger(field).None? ==> r == Failure(FormatError))
    ensures t.fullName == Int64TypeName ==>
      && (r.Success? ==> r.value.I64? && InInt64Range(r.value.l))
      && (ParseInteger(field).Some? && !InInt64Range(ParseInteger(field).value) ==> r == Failure(OverflowError))
      && (ParseInteger(field).None? ==> r == Failure(FormatError))
    ensures t.fullName == BooleanTypeName && ParseBoolean(field).Some? ==> r == Success(Bool(ParseBoolean(field).value))
    ensures t.fullName == Int32TypeName && ParseInteger(field).Some? && InInt32Range(ParseInteger(field).value) ==>
      r == Success(I32(ParseInteger(field).value))
    ensures t.fullName == Int64TypeName && ParseInteger(field).Some? && InInt64Range(ParseInteger(field).value) ==>
      r == Success(I64(ParseInteger(field).value))
    ensures t.fullName == DoubleTypeName ==>
      r == if p.toDouble(field).Some? then Success(Real(p.toDouble(field).value)) else Failure(FormatError)
    ensures t.fullName == DateTimeTypeName ==>
      r == if p.toDateTime(field).Some? then Success(Time(p.toDateTime(field).value)) else Failure(FormatError)
  {
    StringExtensions.ToSystemType(field, t, p)
  }

  /** 32-bit integer text converts back to the same integer. */
  lemma ToSystemTypeInt32RoundTrip(n: int, t: ClrType, p: Parsers)
    requires t.fullName == Int32TypeName && InInt32Range(n)
    ensures ToSystemType(ShowInt(n), t, p) == Success(I32(n))
  {
    ParseShowInt(n);
  }

  /** 64-bit integer text converts back to the same integer. */
  lemma ToSystemTypeInt64RoundTrip(n: int, t: ClrType, p: Parsers)
    requires t.fullName == Int64TypeName && InInt64Range(n)
    ensures ToSystemType(ShowInt(n), t, p) == Success(I64(n))
  {
    ParseShowInt(n);
  }

  /** Boolean text, in any ASCII case, converts back to the same boolean. */
  lemma ToSystemTypeBooleanRoundTrip(b: bool, s: string, t: ClrType, p: Parsers)
    requires t.fullName == BooleanTypeName && EqualsIgnoreCase(s, ShowBool(b))
    ensures ToSystemType(s, t, p) == Success(Bool(b))
  {
    ParseShowBool(b, s);
  }

  /** The legacy copy of `StringExtensions.GetConnectionString`: the same
      environment lookup, with the configuration always being
      `ConfigurationManager.ConnectionStrings` (`connectionStrings`). */
  function GetConnectionString(name: Option<string>, env: string -> Option<string>,
                               connectionStrings: Option<string> -> Option<string>): (r: Option<string>)
    ensures name.Some? && name.value != "" && env(name.value).Some? && env(name.value).value != "" ==>
      r == env(name.value)
    ensures !(name.Some? && name.value != "" && env(name.value).Some? && env(name.value).value != "") ==>
      r == connectionStrings(name)
  {
    StringExtensions.GetConnectionString(name, env, connectionStrings)
  }

  // ---------------------------------------------------------------------
  // ReplaceDotInKeys: always builds a new object

  /** A fresh copy of `obj` without null entries, with every `.` in a key
      replaced by `_`, and with nested objects rewritten the same way. */
  function ReplaceDotInKeys(obj: Expando): (clone: Expando)
    ensures Canonical(clone)
    decreases obj, 1
  {
    if |obj| == 0 then []
    else CopyItem(ReplaceDotInKeys(obj[..|obj| - 1]), obj[|obj| - 1])
  }

  /** One iteration of the copying loop. */
  function CopyItem(clone: Expando, item: Entry): (r: Expando)
    requires Canonical(clone)
    ensures Canonical(r)
    decreases item, 0
  {
    match item.value
    case Null => clone
    case Obj(nested) =>
      var v := Obj(ReplaceDotInKeys(nested));
      SetCanonical(clone, Underscored(item.key), v);
      Set(clone, Underscored(item.key), v)
    case _ =>
      if '.' in item.key then
        SetCanonical(clone, Underscored(item.key), item.value);
        Set(clone, Underscored(item.key), item.value)
      else
        SetCanonical(clone, item.key, item.value);
        Set(clone, item.key, item.value)
  }

  /** What a non-null value is copied as. */
  function Rewritten(v: Value): Value {
    if v.Obj? then Obj(ReplaceDotInKeys(v.fields)) else v
  }

  /** Every branch of the loop body assigns the rewritten value under the underscored key. */
  lemma CopyItemAssigns(clone: Expando, item: Entry)
    requires Canonical(clone)
    ensures item.value.Null? ==> CopyItem(clone, item) == clone
    ensures !item.value.Null? ==> CopyItem(clone, item) == Set(clone, Underscored(item.key), Rewritten(item.value))
  {
    if !item.value.Null? && !item.value.Obj? && '.' !in item.key {
      UnderscoredIdentity(item.key);
    }
  }

  /** One loop iteration appends an entry that is already in canonical form
      and whose key is new. */
  lemma CopyItemAppends(clone: Expando, item: Entry)
    requires Canonical(clone)
    requires '.' !in item.key && !item.value.Null? && item.key !in Keys(clone)
    requires item.value.Obj? ==> ReplaceDotInKeys(item.value.fields) == item.value.fields
    ensures CopyItem(clone, item) == clone + [item]
  {
    CopyItemAssigns(clone, item);
    UnderscoredIdentity(item.key);
    assert Rewritten(item.value) == item.value;
  }

  /** A canonical object is copied unchanged. */
  lemma {:induction false} CanonicalFixpoint(d: Expando)
    requires Canonical(d)
    ensures ReplaceDotInKeys(d) == d
    decreases d
  {
    if |d| > 0 {
      var n := |d| - 1;
      var prefix := d[..n];
      var last := d[n];
      CanonicalLast(d);
      CanonicalFixpoint(prefix);
      if last.value.Obj? {
        CanonicalFixpoint(last.value.fields);
      }
      CopyItemAppends(prefix, last);
      assert ReplaceDotInKeys(d) == CopyItem(prefix, last);
      assert prefix + [last] == d;
    }
  }

  /** Rewriting twice gives the same tree as rewriting once. */
  lemma ReplaceDotInKeysIdempotent(obj: Expando)
    ensures ReplaceDotInKeys(ReplaceDotInKeys(obj)) == ReplaceDotInKeys(obj)
  {
    CanonicalFixpoint(ReplaceDotInKeys(obj));
  }

  /** The last non-null entry whose key underscores to a given key supplies
      that key's value: an earlier colliding entry is overwritten. */
  lemma {:induction false} LaterEntryWins(obj: Expando, i: nat)
    requires i < |obj| && !obj[i].value.Null?
    requires forall j :: i < j < |obj| ==> obj[j].value.Null? || Underscored(obj[j].key) != Underscored(obj[i].key)
    ensures Lookup(ReplaceDotInKeys(obj), Underscored(obj[i].key)) == Some(Rewritten(obj[i].value))
  {
    var n := |obj| - 1;
    var k := Underscored(obj[i].key);
    var prefix := ReplaceDotInKeys(obj[..n]);
    assert ReplaceDotInKeys(obj) == CopyItem(prefix, obj[n]);
    CopyItemAssigns(prefix, obj[n]);
    if i < n {
      assert obj[..n][i] == obj[i];
      LaterEntryWins(obj[..n], i);
      assert obj[n].value.Null? || Underscored(obj[n].key) != k;
    }
  }

  /** A key that no non-null entry underscores to is absent. */
  lemma {:induction false} UnmatchedKeyAbsent(obj: Expando, k: string)
    requires forall j :: 0 <= j < |obj| ==> obj[j].value.Null? || Underscored(obj[j].key) != k
    ensures Lookup(ReplaceDotInKeys(obj), k) == None
  {
    if |obj| > 0 {
      var n := |obj| - 1;
      UnmatchedKeyAbsent(obj[..n], k);
      CopyItemAssigns(ReplaceDotInKeys(obj[..n]), obj[n]);
    }
  }

  /** The rewrite does not descend into lists: a list is copied as it is,
      whatever the objects inside it hold, under its underscored key. */
  lemma ListContentsKept(key: string, items: seq<Value>)
    ensures ReplaceDotInKeys([Entry(key, List(items))]) == [Entry(Underscored(key), List(items))]
  {
    var obj := [Entry(key, List(items))];
    assert obj[..0] == [];
    assert ReplaceDotInKeys(obj) == CopyItem([], obj[0]);
    CopyItemAssigns([], obj[0]);
  }

  /** An aggregate exception's inner exceptions arrive as a list of objects:
      their dotted keys and null values reach the document unchanged. */
  lemma DottedKeyInListSurvives()
    ensures var inner := [Obj([Entry("Data.Key", Null)])];
      Lookup(ReplaceDotInKeys([Entry("InnerExceptions", List(inner))]), "InnerExceptions") == Some(List(inner))
  {
    ListContentsKept("InnerExceptions", [Obj([Entry("Data.Key", Null)])]);
    UnderscoredIdentity("InnerExceptions");
  }

  /** Leaf values are kept unchanged under their underscored key. */
  lemma LeafKept(obj: Expando, i: nat)
    requires i < |obj| && !obj[i].value.Null? && !obj[i].value.Obj?
    requires forall j :: i < j < |obj| ==> obj[j].value.Null? || Underscored(obj[j].key) != Underscored(obj[i].key)
    ensures Lookup(ReplaceDotInKeys(obj), Underscored(obj[i].key)) == Some(obj[i].value)
  {
    LaterEntryWins(obj, i);
  }
}

=== FILE: flat_object_contract_resolver.dfy ===
/** A contract resolver that attaches a flattening converter to every
    readable property whose declared type is not simple; that converter
    writes such values as their `ToString()` text, and collections as null. */
module FlatObjectContractResolver {
  import opened Wrappers
  import opened Clr
  import opened JsonNet
  import JsonToStringConverter

  /** `IsSimpleType`: a known type that is not of type code Object or is a value type. */
  predicate IsSimpleType(propertyType: Option<ClrType>) {
    propertyType != None && (propertyType.value.code != TypeCode.Object || propertyType.value.isValueType)
  }

  /** `CreateProperty`, given the property the base resolver made. */
  function CreateProperty(base: JsonProperty): (p: JsonProperty)
    ensures base.readable && !IsSimpleType(base.propertyType) ==> p.converter == Some(FlatObjectConverter)
    ensures !(base.readable && !IsSimpleType(base.propertyType)) ==> p == base
    ensures p.propertyName == base.propertyName && p.propertyType == base.propertyType && p.readable == base.readable
  {
    if base.readable && !IsSimpleType(base.propertyType) then base.(converter := Some(FlatObjectConverter)) else base
  }

  /** `FlatObjectConverter.CanConvert`: every type. */
  function CanConvert(objectType: ClrType): (r: bool)
    ensures r
  {
    true
  }

  /** `FlatObjectConverter.ReadJson`: always null. */
  function ReadJson(objectType: ClrType, existingValue: Option<ClrObject>): (r: Option<ClrObject>)
    ensures r.None?
  {
    None
  }

  /** `FlatObjectConverter.WriteJson`: null for null and for any collection,
      otherwise the value's text. */
  function WriteJson(value: Option<ClrObject>): (w: Written)
    ensures value.None? ==> w == WroteNull
    ensures value.Some? && IsEnumerable(value.value.runtimeType) ==> w == WroteNull
    ensures value.Some? && !IsEnumerable(value.value.runtimeType) ==> w == WroteString(value.value.text)
  {
    match value
    case None => WroteNull
    case Some(o) => if IsEnumerable(o.runtimeType) then WroteNull else WroteString(o.text)
  }

  /** The flattening writer and the to-string writer agree exactly on the
      values that are not collections. */
  lemma WritersAgreeOffCollections(value: Option<ClrObject>)
    ensures WriteJson(value) == JsonToStringConverter.WriteJson(value)
            <==> value.None? || !IsEnumerable(value.value.runtimeType)
  {
  }

  /** A property declared as `object` gets the flattening converter, and a
      string it holds is written as null, because strings are enumerable;
      a property declared as `string` keeps its text. */
  lemma StringInObjectPropertyIsDropped(name: string, text: string)
    ensures CreateProperty(JsonProperty(name, Some(ObjectType), true, None)).converter == Some(FlatObjectConverter)
    ensures WriteJson(Some(ClrObject(StringType, text))) == WroteNull
    ensures CreateProperty(JsonProperty(name, Some(StringType), true, None)).converter == None
  {
  }
}

=== FILE: json_net.dfy ===
/** The pieces of JSON.NET the converters plug into, reduced to what they
    observe: the contract kind a resolver assigns to a type, the converter
    instances, a serialized property, the single token a converter writes,
    and the object-to-ExpandoObject round trip. */
module JsonNet {
  import opened Wrappers
  import opened Clr
  import opened Values

  /** The kind of `JsonContract` a contract resolver produces for a type. */
  datatype ContractKind =
    | ObjectContract | ArrayContract | DictionaryContract | PrimitiveContract
    | StringContract | DynamicContract | SerializableContract | LinqContract

  /** The converters the target creates. Two `ToStringConverter`s for the
      same type are interchangeable. */
  datatype JsonConverter =
    | ToStringConverter(objectType: ClrType)
    | FlatObjectConverter

  /** A `JsonProperty` as far as the contract resolver touches it. */
  datatype JsonProperty = JsonProperty(
    propertyName: string,
    propertyType: Option<ClrType>,
    readable: bool,
    converter: Option<JsonConverter>)

  /** The one token a converter's `WriteJson` emits. */
  datatype Written = WroteNull | WroteString(s: string)

  /** The serializer the converter works with: its contract resolver and
      the JSON round trip of an object into an ExpandoObject, which throws
      when serializing the object does (a property getter that throws, a
      reference loop the settings reject). */
  datatype Serializer = Serializer(
    resolveContract: ClrType -> ContractKind,
    toExpando: ClrObject -> Result<Expando, Exn>)
}

=== FILE: json_to_string_converter.dfy ===
/** A write-only converter that serializes every value assignable to a
    configured type as its `ToString()` text. */
module JsonToStringConverter {
  import opened Wrappers
  import opened Clr
  import opened JsonNet

  /** `CanRead`: the converter never reads. */
  const CanRead := false

  /** The NotSupportedException `ReadJson` throws. */
  datatype NotSupported = NotSupported(message: string)

  /** `WriteJson`: null for null, otherwise the value's text, collections included. */
  function WriteJson(value: Option<ClrObject>): (w: Written)
    ensures value.None? <==> w == WroteNull
    ensures value.Some? ==> w == WroteString(value.value.text)
  {
    match value
    case None => WroteNull
    case Some(o) => WroteString(o.text)
  }

  /** `ReadJson`: always throws. */
  function ReadJson(objectType: ClrType, existingValue: Option<ClrObject>): (r: Result<Option<ClrObject>, NotSupported>)
    ensures r.Failure?
  {
    Failure(NotSupported("Only serialization is supported"))
  }

  /** `CanConvert`: whether the configured type is assignable from `objectType`. */
  predicate CanConvert(configured: ClrType, objectType: ClrType) {
    Is(objectType, configured.fullName)
  }
}

=== FILE: object_converter.dfy ===
/** The recursion-limit policy for turning an arbitrary property value into
    something a document can hold: exceptions always become structured
    objects tagged with their type; with a non-negative limit, primitives
    and value types pass through, limit 0 turns collections into null and
    other objects into their text, and a positive limit expands values
    with an object contract; a negative limit passes everything else
    through. */
module ObjectConverter {
  import opened Wrappers
  import opened Clr
  import opened Values
  import opened JsonNet
  import FlatObjectContractResolver

  /** A possibly null object as a document value. */
  function Boxed(value: Option<ClrObject>): (v: Value)
    ensures value.None? <==> v == Null
    ensures value.Some? ==> v == Other(value.value)
  {
    match value
    case None => Null
    case Some(o) => Other(o)
  }

  /** `Convert.GetTypeCode(value)`. */
  function TypeCodeOf(value: Option<ClrObject>): TypeCode {
    match value
    case None => TypeCode.Empty
    case Some(o) => o.runtimeType.code
  }

  /** `FormatToExpandoObject`: the object's JSON round trip, with a `Type`
      key naming the runtime type added for exceptions; an exception thrown
      by the round trip propagates. */
  function FormatToExpandoObject(o: ClrObject, serializer: Serializer): (r: Result<Value, Exn>)
    ensures r.Failure? <==> serializer.toExpando(o).Failure?
    ensures r.Failure? ==> r.error == serializer.toExpando(o).error
    ensures r.Success? ==> r.value.Obj?
    ensures r.Success? && IsException(o.runtimeType) ==> Lookup(r.value.fields, "Type") == Some(Str(o.runtimeType.fullName))
    ensures r.Success? && !IsException(o.runtimeType) ==> r.value == Obj(serializer.toExpando(o).value)
  {
    match serializer.toExpando(o)
    case Failure(x) => Failure(x)
    case Success(expando) =>
      if IsException(o.runtimeType) then Success(Obj(Set(expando, "Type", Str(o.runtimeType.fullName))))
      else Success(Obj(expando))
  }

  /** `FormatValueSafe`: only the round trip can throw, and it is reached
      for exceptions and, above limit 0, for values with an object contract. */
  function FormatValueSafe(value: Option<ClrObject>, maxRecursionLimit: int, serializer: Serializer): (r: Result<Value, Exn>)
    ensures value.None? ==> r == Success(Null)
    ensures value.Some? && IsException(value.value.runtimeType) ==> r == FormatToExpandoObject(value.value, serializer)
    ensures value.Some? && IsException(value.value.runtimeType) && r.Success? ==>
      r.value.Obj? && Lookup(r.value.fields, "Type") == Some(Str(value.value.runtimeType.fullName))
    ensures value.Some? && !IsException(value.value.runtimeType) ==>
      var o := value.value;
      var reference := o.runtimeType.code == TypeCode.Object && !o.runtimeType.isValueType;
      && (maxRecursionLimit < 0 || !reference ==> r == Success(Other(o)))
      && (maxRecursionLimit == 0 && reference ==> r == Success(if IsEnumerable(o.runtimeType) then Null else Str(o.text)))
      && (maxRecursionLimit >= 1 && reference ==>
            r == if serializer.resolveContract(o.runtimeType) == ObjectContract
                 then (match serializer.toExpando(o) case Success(e) => Success(Obj(e)) case Failure(x) => Failure(x))
                 else Success(Other(o)))
  {
    if value.Some? && IsException(value.value.runtimeType) then
      FormatToExpandoObject(value.value, serializer)
    else if maxRecursionLimit >= 0 then
      if TypeCodeOf(value) != TypeCode.Object || value.value.runtimeType.isValueType then
        Success(Boxed(value))
      else if maxRecursionLimit == 0 then
        if IsEnumerable(value.value.runtimeType) then Success(Null) else Success(Str(value.value.text))
      else if serializer.resolveContract(value.value.runtimeType) == ObjectContract then
        FormatToExpandoObject(value.value, serializer)
      else Success(Boxed(value))
    else Success(Boxed(value))
  }

  /** The value fails to format exactly when it reaches the round trip and
      the round trip throws: an exception, or an object-contract value
      above limit 0. */
  lemma FailsOnlyInRoundTrip(value: Option<ClrObject>, limit: int, serializer: Serializer)
    ensures FormatValueSafe(value, limit, serializer).Failure? <==>
      && value.Some?
      && serializer.toExpando(value.value).Failure?
      && (|| IsException(value.value.runtimeType)
          || (&& limit >= 1 && value.value.runtimeType.code == TypeCode.Object && !value.value.runtimeType.isValueType
              && serializer.resolveContract(value.value.runtimeType) == ObjectContract))
  {
  }

  /** The contract resolver's simple-type test is the test that lets a value
      through here unchanged: a non-exception value of a simple type is
      returned as it is under any non-negative limit, and at limit 0 only
      such a value is. */
  lemma SimpleTypeTestShared(o: ClrObject, limit: int, serializer: Serializer)
    requires !IsException(o.runtimeType) && limit >= 0
    ensures FlatObjectContractResolver.IsSimpleType(Some(o.runtimeType)) ==>
      FormatValueSafe(Some(o), limit, serializer) == Success(Other(o))
    ensures limit == 0 ==>
      (FormatValueSafe(Some(o), 0, serializer) == Success(Other(o)) <==> FlatObjectContractResolver.IsSimpleType(Some(o.runtimeType)))
  {
  }

  /** Every result is the value itself, null, the value's text, or a
      structured object. */
  lemma ResultKinds(value: Option<ClrObject>, limit: int, serializer: Serializer)
    ensures var r := FormatValueSafe(value, limit, serializer);
      r.Success? ==> r.value == Boxed(value) || r.value == Null || r.value.Obj? || (value.Some? && r.value == Str(value.value.text))
  {
  }

  /** Exceptions are formatted the same way whatever the limit. */
  lemma ExceptionsIgnoreLimit(o: ClrObject, limit1: int, limit2: int, serializer: Serializer)
    requires IsException(o.runtimeType)
    ensures FormatValueSafe(Some(o), limit1, serializer) == FormatValueSafe(Some(o), limit2, serializer)
  {
  }

  /** Only a limit of exactly 0 replaces a non-exception value by text or
      null; every other limit keeps it or expands it into an object. */
  lemma OnlyLimitZeroFlattens(o: ClrObject, limit: int, serializer: Serializer)
    requires !IsException(o.runtimeType) && limit != 0
    ensures var r := FormatValueSafe(Some(o), limit, serializer);
      r.Failure? || r.value == Other(o) || r.value.Obj?
  {
  }

  /** At limit 0 a non-exception reference value comes out exactly as the
      flattening converter would write it: null for collections, text
      otherwise. */
  lemma LimitZeroMatchesFlatWriter(o: ClrObject, serializer: Serializer)
    requires !IsException(o.runtimeType) && o.runtimeType.code == TypeCode.Object && !o.runtimeType.isValueType
    ensures FlatObjectContractResolver.WriteJson(Some(o)) == WroteNull ==> FormatValueSafe(Some(o), 0, serializer) == Success(Null)
    ensures FlatObjectContractResolver.WriteJson(Some(o)) == WroteString(o.text) ==> FormatValueSafe(Some(o), 0, serializer) == Success(Str(o.text))
  {
  }
}

=== FILE: object_type_convert.dfy ===
/** A configuration item pairing a CLR type with the converter used for
    it. The converter property is lazily initialised: read with nothing
    assigned, it builds a to-string converter for the configured type and
    keeps that instance. The object is modelled as a value; reads return
    the object's state after the read. */
module ObjectTypeConvert {
  import opened Wrappers
  import opened Clr
  import opened JsonNet
  import JsonToStringConverter
  import FlatObjectContractResolver

  datatype ObjectTypeConvert = ObjectTypeConvert(objectType: Option<ClrType>, cachedConverter: Option<JsonConverter>)

  /** The parameterless constructor. */
  function Create(): (c: ObjectTypeConvert)
    ensures c.objectType.None? && c.cachedConverter.None?
  {
    CreateFor(None)
  }

  /** The constructor taking the type to convert with `ToString()`. */
  function CreateFor(objectType: Option<ClrType>): (c: ObjectTypeConvert)
    ensures c.objectType == objectType && c.cachedConverter.None?
  {
    ObjectTypeConvert(objectType, None)
  }

  /** The `ObjectType` setter. */
  function SetObjectType(c: ObjectTypeConvert, objectType: Option<ClrType>): (r: ObjectTypeConvert)
    ensures r.objectType == objectType && r.cachedConverter == c.cachedConverter
  {
    c.(objectType := objectType)
  }

  /** The `JsonConverter` setter; assigning null re-enables the lazy default. */
  function SetJsonConverter(c: ObjectTypeConvert, converter: Option<JsonConverter>): (r: ObjectTypeConvert)
    ensures r.cachedConverter == converter && r.objectType == c.objectType
  {
    c.(cachedConverter := converter)
  }

  datatype Got = Got(converter: Option<JsonConverter>, after: ObjectTypeConvert)

  /** The `JsonConverter` getter. */
  function GetJsonConverter(c: ObjectTypeConvert): (g: Got)
    ensures c.cachedConverter.Some? ==> g == Got(c.cachedConverter, c)
    ensures c.cachedConverter.None? && c.objectType.None? ==> g == Got(None, c)
    ensures c.cachedConverter.None? && c.objectType.Some? ==>
      && g.converter == Some(ToStringConverter(c.objectType.value))
      && g.after == c.(cachedConverter := g.converter)
  {
    if c.cachedConverter.Some? then Got(c.cachedConverter, c)
    else
      var created := if c.objectType.Some? then Some(ToStringConverter(c.objectType.value)) else None;
      Got(created, c.(cachedConverter := created))
  }

  /** A converter assigned through the setter is what the getter returns. */
  lemma SetThenGet(c: ObjectTypeConvert, converter: JsonConverter)
    ensures GetJsonConverter(SetJsonConverter(c, Some(converter))).converter == Some(converter)
  {
  }

  /** Reading twice returns the same converter and leaves the object as the first read did. */
  lemma GetIsStable(c: ObjectTypeConvert)
    ensures GetJsonConverter(GetJsonConverter(c).after) == Got(GetJsonConverter(c).converter, GetJsonConverter(c).after)
  {
  }

  /** Once created, the converter stays the one built for the type
      configured at that time, even after `ObjectType` changes. */
  lemma CacheSurvivesTypeChange(c: ObjectTypeConvert, newType: Option<ClrType>)
    requires c.cachedConverter.None? && c.objectType.Some?
    ensures GetJsonConverter(SetObjectType(GetJsonConverter(c).after, newType)).converter
            == Some(ToStringConverter(c.objectType.value))
  {
  }

  /** What a converter answers to `CanConvert`. */
  predicate ConverterCanConvert(converter: JsonConverter, objectType: ClrType) {
    match converter
    case ToStringConverter(t) => JsonToStringConverter.CanConvert(t, objectType)
    case FlatObjectConverter => FlatObjectContractResolver.CanConvert(objectType)
  }

  /** The converter the getter creates for type T applies to T and to every
      type listing T among its base types and interfaces, and to no other type. */
  lemma CreatedConverterScope(c: ObjectTypeConvert, objectType: ClrType)
    requires c.cachedConverter.None? && c.objectType.Some?
    ensures var g := GetJsonConverter(c);
      && g.converter.Some?
      && (ConverterCanConvert(g.converter.value, objectType) <==>
            objectType.fullName == c.objectType.value.fullName || c.objectType.value.fullName in objectType.supertypes)
  {
  }
}

=== FILE: string_extensions.dfy ===
/** The newer helper class: the same type-name dispatch as the older one,
    and a connection-string lookup that falls back to the application
    configuration (the connection-strings section, or appsettings.json on
    .NET Standard builds). */
module StringExtensions {
  import opened Wrappers
  import opened Clr
  import opened Values
  import opened Strings
  import opened SystemConvert

  /** Converts rendered text to the CLR type named by `t`; any type other
      than the five convertible ones leaves the text as it is. */
  function ToSystemType(field: string, t: ClrType, p: Parsers): (r: Result<Value, ConversionError>)
    ensures t.fullName !in ConvertibleTypeNames ==> r == Success(Str(field))
    ensures t.fullName == BooleanTypeName ==>
      && (r.Success? ==> r.value.Bool?)
      && (r.Success? <==> ParseBoolean(field).Some?)
    ensures t.fullName == Int32TypeName ==>
      && (r.Success? ==> r.value.I32? && InInt32Range(r.value.i))
      && (ParseInteger(field).Some? && !InInt32Range(ParseInteger(field).value) ==> r == Failure(OverflowError))
      && (ParseInteger(field).None? ==> r == Failure(FormatError))
    ensures t.fullName == Int64TypeName ==>
      && (r.Success? ==> r.value.I64? && InInt64Range(r.value.l))
      && (ParseInteger(field).Some? && !InInt64Range(ParseInteger(field).value) ==> r == Failure(OverflowError))
      && (ParseInteger(field).None? ==> r == Failure(FormatError))
    ensures t.fullName == BooleanTypeName && ParseBoolean(field).Some? ==> r == Success(Bool(ParseBoolean(field).value))
    ensures t.fullName == Int32TypeName && ParseInteger(field).Some? && InInt32Range(ParseInteger(field).value) ==>
      r == Success(I32(ParseInteger(field).value))
    ensures t.fullName == Int64TypeName && ParseInteger(field).Some? && InInt64Range(ParseInteger(field).value) ==>
      r == Success(I64(ParseInteger(field).value))
    ensures t.fullName == DoubleTypeName ==>
      r == if p.toDouble(field).Some? then Success(Real(p.toDouble(field).value)) else Failure(FormatError)
    ensures t.fullName == DateTimeTypeName ==>
      r == if p.toDateTime(field).Some? then Success(Time(p.toDateTime(field).value)) else Failure(FormatError)
  {
    match t.fullName
    case "System.Boolean" =>
      (match ToBoolean(field) case Success(b) => Success(Bool(b)) case Failure(e) => Failure(e))
    case "System.Double" =>
      (match ToDouble(field, p) case Success(d) => Success(Real(d)) case Failure(e) => Failure(e))
    case "System.DateTime" =>
      (match ToDateTime(field, p) case Success(d) => Success(Time(d)) case Failure(e) => Failure(e))
    case "System.Int32" =>
      (match ToInt32(field) case Success(n) => Success(I32(n)) case Failure(e) => Failure(e))
    case "System.Int64" =>
      (match ToInt64(field) case Success(n) => Success(I64(n)) case Failure(e) => Failure(e))
    case _ => Success(Str(field))
  }

  /** 32-bit integer text converts back to the same integer. */
  lemma ToSystemTypeInt32RoundTrip(n: int, t: ClrType, p: Parsers)
    requires t.fullName == Int32TypeName && InInt32Range(n)
    ensures ToSystemType(ShowInt(n), t, p) == Success(I32(n))
  {
    ParseShowInt(n);
  }

  /** 64-bit integer text converts back to the same integer. */
  lemma ToSystemTypeInt64RoundTrip(n: int, t: ClrType, p: Parsers)
    requires t.fullName == Int64TypeName && InInt64Range(n)
    ensures ToSystemType(ShowInt(n), t, p) == Success(I64(n))
  {
    ParseShowInt(n);
  }

  /** Boolean text, in any ASCII case, converts back to the same boolean. */
  lemma ToSystemTypeBooleanRoundTrip(b: bool, s: string, t: ClrType, p: Parsers)
    requires t.fullName == BooleanTypeName && EqualsIgnoreCase(s, ShowBool(b))
    ensures ToSystemType(s, t, p) == Success(Bool(b))
  {
    ParseShowBool(b, s);
  }

  /** The environment variable `name`; a null or empty name is not looked up. */
  function GetEnvironmentVariable(name: Option<string>, env: string -> Option<string>): (r: Option<string>)
    ensures name.None? || name.value == "" ==> r.None?
    ensures name.Some? && name.value != "" ==> r == env(name.value)
  {
    if name.None? || name.value == "" then None else env(name.value)
  }

  /** A non-empty environment variable wins; only otherwise is the
      application configuration consulted. */
  function GetConnectionString(name: Option<string>, env: string -> Option<string>,
                               configuration: Option<string> -> Option<string>): (r: Option<string>)
    ensures name.Some? && name.value != "" && env(name.value).Some? && env(name.value).value != "" ==>
      r == env(name.value)
    ensures !(name.Some? && name.value != "" && env(name.value).Some? && env(name.value).value != "") ==>
      r == configuration(name)
  {
    var value := GetEnvironmentVariable(name, env);
    if value.Some? && value.value != "" then value else configuration(name)
  }

  /** With a null or empty name the environment cannot influence the result. */
  lemma EmptyNameIgnoresEnvironment(name: Option<string>, env1: string -> Option<string>,
                                    env2: string -> Option<string>, configuration: Option<string> -> Option<string>)
    requires name.None? || name.value == ""
    ensures GetConnectionString(name, env1, configuration) == GetConnectionString(name, env2, configuration)
  {
  }

  /** When the environment supplies a value, the configuration cannot influence the result. */
  lemma EnvironmentShadowsConfiguration(name: string, env: string -> Option<string>,
                                        config1: Option<string> -> Option<string>, config2: Option<string> -> Option<string>)
    requires name != "" && env(name).Some? && env(name).value != ""
    ensures GetConnectionString(Some(name), env, config1) == GetConnectionString(Some(name), env, config2)
  {
  }
}

=== FILE: strings.dfy ===
/** The .NET string and character primitives the target relies on:
    `char.IsWhiteSpace`, trimming, `ToLowerInvariant` (ASCII letters only),
    `string.Split` with and without empty entries, and the invariant-culture
    integer and boolean text forms. */
module Strings {
  import opened Wrappers

  /** `char.IsWhiteSpace`: the Unicode space, line and paragraph separators
      plus the control characters U+0009..U+000D and U+0085. */
  predicate IsWhiteSpace(c: char) {
    || '\U{0009}' <= c <= '\U{000D}'
    || c == '\U{0020}' || c == '\U{0085}' || c == '\U{00A0}' || c == '\U{1680}'
    || '\U{2000}' <= c <= '\U{200A}'
    || c == '\U{2028}' || c == '\U{2029}' || c == '\U{202F}' || c == '\U{205F}' || c == '\U{3000}'
  }

  /** `string.IsNullOrWhiteSpace` for a non-null string. */
  predicate IsBlank(s: string) {
    forall i :: 0 <= i < |s| ==> IsWhiteSpace(s[i])
  }

  /** The white space `NumberStyles.Integer` lets surround a number. */
  predicate IsNumberWhite(c: char) {
    '\U{0009}' <= c <= '\U{000D}' || c == ' '
  }

  /** Removes every leading character satisfying `ws`. */
  function TrimStart(s: string, ws: char -> bool): (r: string)
    ensures |r| <= |s| && r == s[|s| - |r|..]
    ensures forall i :: 0 <= i < |s| - |r| ==> ws(s[i])
    ensures |r| > 0 ==> !ws(r[0])
  {
    if |s| > 0 && ws(s[0]) then
      var r := TrimStart(s[1..], ws);
      assert s[1..][|s| - 1 - |r|..] == s[|s| - |r|..];
      assert forall i :: 1 <= i < |s| - |r| ==> s[i] == s[1..][i - 1];
      r
    else s
  }

  /** Removes every trailing character satisfying `ws`. */
  function TrimEnd(s: string, ws: char -> bool): (r: string)
    ensures |r| <= |s| && r == s[..|r|]
    ensures forall i :: |r| <= i < |s| ==> ws(s[i])
    ensures |r| > 0 ==> !ws(r[|r| - 1])
  {
    if |s| > 0 && ws(s[|s| - 1]) then TrimEnd(s[..|s| - 1], ws) else s
  }

  function Trim(s: string, ws: char -> bool): string {
    TrimEnd(TrimStart(s, ws), ws)
  }

  /** A string with no character to trim at either end is its own trim. */
  lemma TrimUntouched(s: string, ws: char -> bool)
    requires |s| == 0 || (!ws(s[0]) && !ws(s[|s| - 1]))
    ensures Trim(s, ws) == s
  {
  }

  function ToLowerChar(c: char): char {
    if 'A' <= c <= 'Z' then (c as int + 32) as char else c
  }

  /** `ToLowerInvariant`, restricted to the ASCII letters. */
  function ToLowerInvariant(s: string): (r: string)
    ensures |r| == |s|
    ensures forall i :: 0 <= i < |s| ==> r[i] == ToLowerChar(s[i])
    ensures forall i :: 0 <= i < |r| ==> !('A' <= r[i] <= 'Z')
  {
    seq(|s|, i requires 0 <= i < |s| => ToLowerChar(s[i]))
  }

  /** Lower-casing is idempotent. */
  lemma ToLowerIdempotent(s: string)
    ensures ToLowerInvariant(ToLowerInvariant(s)) == ToLowerInvariant(s)
  {
  }

  /** Ordinal comparison ignoring the case of ASCII letters. */
  predicate EqualsIgnoreCase(a: string, b: string) {
    ToLowerInvariant(a) == ToLowerInvariant(b)
  }

  // ---------------------------------------------------------------------
  // string.Split(new[] { sep }, options)

  /** `s.Split(sep)`: every segment between separators, empty ones included. */
  function Split(s: string, sep: char): (parts: seq<string>)
    ensures |parts| >= 1
    ensures forall i :: 0 <= i < |parts| ==> sep !in parts[i]
  {
    if |s| == 0 then [""]
    else
      var rest := Split(s[1..], sep);
      if s[0] == sep then [""] + rest
      else [[s[0]] + rest[0]] + rest[1..]
  }

  /** `string.Join(sep, parts)`. */
  function Join(parts: seq<string>, sep: char): string
    requires |parts| >= 1
  {
    if |parts| == 1 then parts[0] else parts[0] + [sep] + Join(parts[1..], sep)
  }

  /** Joining the segments back restores the string. */
  lemma {:induction false} JoinSplit(s: string, sep: char)
    ensures Join(Split(s, sep), sep) == s
  {
    if |s| > 0 {
      JoinSplit(s[1..], sep);
      var rest := Split(s[1..], sep);
      assert [s[0]] + s[1..] == s;
      if s[0] == sep {
        assert Split(s, sep) == [""] + rest;
        assert Join([""] + rest, sep) == [sep] + Join(rest, sep) by {
          assert ([""] + rest)[1..] == rest;
        }
      } else {
        var parts := [[s[0]] + rest[0]] + rest[1..];
        assert Split(s, sep) == parts;
        if |rest| == 1 {
          assert Join(parts, sep) == [s[0]] + rest[0];
        } else {
          assert parts[1..] == rest[1..];
          assert Join(rest, sep) == rest[0] + [sep] + Join(rest[1..], sep);
          assert Join(parts, sep) == [s[0]] + Join(rest, sep);
        }
      }
    }
  }

  /** Splitting a join of separator-free segments gives the segments back. */
  lemma {:induction false} SplitJoin(parts: seq<string>, sep: char)
    requires |parts| >= 1
    requires forall i :: 0 <= i < |parts| ==> sep !in parts[i]
    ensures Split(Join(parts, sep), sep) == parts
  {
    if |parts| == 1 {
      SplitFree(parts[0], sep);
    } else {
      SplitJoin(parts[1..], sep);
      SplitPrefixed(parts[0], Join(parts[1..], sep), sep);
      assert [parts[0]] + parts[1..] == parts;
    }
  }

  /** A separator-free string is a single segment. */
  lemma {:induction false} SplitFree(s: string, sep: char)
    requires sep !in s
    ensures Split(s, sep) == [s]
  {
    if |s| > 0 {
      assert sep !in s[1..] by { assert forall c :: c in s[1..] ==> c in s; }
      SplitFree(s[1..], sep);
      assert [s[0]] + s[1..] == s;
    }
  }

  /** A separator-free prefix followed by a separator becomes the first segment. */
  lemma {:induction false} SplitPrefixed(p: string, t: string, sep: char)
    requires sep !in p
    ensures Split(p + [sep] + t, sep) == [p] + Split(t, sep)
  {
    if |p| == 0 {
      assert p + [sep] + t == [sep] + t;
      assert ([sep] + t)[1..] == t;
    } else {
      assert sep !in p[1..] by { assert forall c :: c in p[1..] ==> c in p; }
      SplitPrefixed(p[1..], t, sep);
      assert (p + [sep] + t)[1..] == p[1..] + [sep] + t;
      assert [p[0]] + p[1..] == p;
    }
  }

  /** Keeps the non-empty strings, in order. */
  function NonEmpty(parts: seq<string>): (r: seq<string>)
    ensures forall x :: x in r <==> x in parts && x != ""
    ensures multiset(r) == multiset(parts)["" := 0]
    ensures |r| <= |parts|
  {
    if |parts| == 0 then []
    else
      var rest := NonEmpty(parts[1..]);
      assert parts == [parts[0]] + parts[1..];
      (if parts[0] == "" then [] else [parts[0]]) + rest
  }

  /** Filtering a concatenation filters each part in place: the kept
      segments stay in their original order. */
  lemma {:induction false} NonEmptyAppend(a: seq<string>, b: seq<string>)
    ensures NonEmpty(a + b) == NonEmpty(a) + NonEmpty(b)
  {
    if |a| == 0 {
      assert a + b == b;
    } else {
      var head := if a[0] == "" then [] else [a[0]];
      assert (a + b)[0] == a[0];
      assert (a + b)[1..] == a[1..] + b;
      NonEmptyAppend(a[1..], b);
      assert head + (NonEmpty(a[1..]) + NonEmpty(b)) == (head + NonEmpty(a[1..])) + NonEmpty(b);
    }
  }

  /** `s.Split(new[] { sep }, StringSplitOptions.RemoveEmptyEntries)`. */
  function SplitRemoveEmptyEntries(s: string, sep: char): (r: seq<string>)
    ensures forall i :: 0 <= i < |r| ==> r[i] != "" && sep !in r[i]
    ensures forall x :: x in r <==> x in Split(s, sep) && x != ""
    ensures multiset(r) == multiset(Split(s, sep))["" := 0]
  {
    var r := NonEmpty(Split(s, sep));
    assert forall i :: 0 <= i < |r| ==> r[i] in r;
    r
  }

  /** When no segment is empty, nothing is removed and the segments join back to `s`. */
  lemma RemoveEmptyEntriesLossless(s: string, sep: char)
    requires forall i :: 0 <= i < |Split(s, sep)| ==> Split(s, sep)[i] != ""
    ensures SplitRemoveEmptyEntries(s, sep) == Split(s, sep)
    ensures Join(SplitRemoveEmptyEntries(s, sep), sep) == s
  {
    NonEmptyKeepsAll(Split(s, sep));
    JoinSplit(s, sep);
  }

  lemma {:induction false} NonEmptyKeepsAll(parts: seq<string>)
    requires forall i :: 0 <= i < |parts| ==> parts[i] != ""
    ensures NonEmpty(parts) == parts
  {
    if |parts| > 0 {
      NonEmptyKeepsAll(parts[1..]);
      assert [parts[0]] + parts[1..] == parts;
    }
  }

  // ---------------------------------------------------------------------
  // Integer and boolean text (invariant culture)

  predicate IsDigit(c: char) { '0' <= c <= '9' }

  predicate AllDigits(s: string) {
    forall i :: 0 <= i < |s| ==> IsDigit(s[i])
  }

  function DigitsValue(s: string): nat
    requires AllDigits(s)
  {
    if |s| == 0 then 0
    else DigitsValue(s[..|s| - 1]) * 10 + (s[|s| - 1] as int - '0' as int)
  }

  /** The integer `NumberStyles.Integer` reads from `s`, unbounded:
      optional white space, an optional sign, one or more ASCII digits,
      optional white space. */
  function ParseInteger(s: string): Option<int>
  {
    var t := Trim(s, IsNumberWhite);
    if |t| > 0 && (t[0] == '-' || t[0] == '+') then
      var body := t[1..];
      if |body| > 0 && AllDigits(body) then
        var magnitude: int := DigitsValue(body);
        Some(if t[0] == '-' then -magnitude else magnitude)
      else None
    else if |t| > 0 && AllDigits(t) then
      Some(DigitsValue(t))
    else None
  }

  function DigitChar(d: nat): (c: char)
    requires d < 10
    ensures IsDigit(c) && c as int - '0' as int == d
  {
    ('0' as int + d) as char
  }

  /** The decimal digits of `n`, without leading zeros. */
  function ShowNat(n: nat): (s: string)
    ensures |s| > 0 && AllDigits(s)
  {
    if n < 10 then [DigitChar(n)] else ShowNat(n / 10) + [DigitChar(n % 10)]
  }

  /** `n.ToString()` under the invariant culture. */
  function ShowInt(n: int): string {
    if n < 0 then "-" + ShowNat(-n) else ShowNat(n)
  }

  lemma {:induction false} DigitsOfShowNat(n: nat)
    ensures DigitsValue(ShowNat(n)) == n
  {
    if n >= 10 {
      DigitsOfShowNat(n / 10);
      var s := ShowNat(n);
      assert s[..|s| - 1] == ShowNat(n / 10);
    }
  }

  /** Integer text round-trips through the parser. */
  lemma ParseShowInt(n: int)
    ensures ParseInteger(ShowInt(n)) == Some(n)
  {
    var s := ShowInt(n);
    DigitsOfShowNat(if n < 0 then -n else n);
    assert !IsNumberWhite(s[0]) && !IsNumberWhite(s[|s| - 1]);
    TrimUntouched(s, IsNumberWhite);
    if n < 0 {
      assert s[1..] == ShowNat(-n);
    }
  }

  /** `bool.Parse`: "True" or "False" in any ASCII case, after trimming
      white space and NUL characters from both ends. */
  function ParseBoolean(s: string): (r: Option<bool>)
  {
    var t := Trim(s, c => IsWhiteSpace(c) || c == '\0');
    if EqualsIgnoreCase(t, "True") then Some(true)
    else if EqualsIgnoreCase(t, "False") then Some(false)
    else None
  }

  /** `b.ToString()`. */
  function ShowBool(b: bool): string {
    if b then "True" else "False"
  }

  /** Boolean text round-trips through the parser, whatever its case. */
  lemma ParseShowBool(b: bool, s: string)
    requires EqualsIgnoreCase(s, ShowBool(b))
    ensures ParseBoolean(s) == Some(b)
  {
    var ws := c => IsWhiteSpace(c) || c == '\0';
    assert |s| == |ShowBool(b)|;
    assert ToLowerChar(s[0]) == ToLowerChar(ShowBool(b)[0]);
    assert ToLowerChar(s[|s| - 1]) == ToLowerChar(ShowBool(b)[|s| - 1]);
    TrimUntouched(s, ws);
    if b {
      assert !EqualsIgnoreCase(s, "False") by { assert |s| != |"False"|; }
    } else {
      assert !EqualsIgnoreCase(s, "True") by { assert |s| != |"True"|; }
    }
  }
}

=== FILE: system_convert.dfy ===
/** The `System.Convert` conversions `ToSystemType` dispatches to. Boolean
    and integer text follow the invariant culture; double and date parsing
    are culture-dependent and floating-point, so they are supplied as
    partial parsers. */
module SystemConvert {
  import opened Wrappers
  import opened Clr
  import opened Strings

  /** FormatException and OverflowException. */
  datatype ConversionError = FormatError | OverflowError

  /** `Convert.ToDouble` and `Convert.ToDateTime`; `None` is a FormatException. */
  datatype Parsers = Parsers(toDouble: string -> Option<Float64>, toDateTime: string -> Option<Timestamp>)

  const BooleanTypeName := "System.Boolean"
  const DoubleTypeName := "System.Double"
  const DateTimeTypeName := "System.DateTime"
  const Int32TypeName := "System.Int32"
  const Int64TypeName := "System.Int64"

  /** The type names `ToSystemType` converts to; any other passes the text through. */
  const ConvertibleTypeNames := {BooleanTypeName, DoubleTypeName, DateTimeTypeName, Int32TypeName, Int64TypeName}

  const Int32Min: int := -0x8000_0000
  const Int32Max: int := 0x7FFF_FFFF
  const Int64Min: int := -0x8000_0000_0000_0000
  const Int64Max: int := 0x7FFF_FFFF_FFFF_FFFF

  predicate InInt32Range(n: int) { Int32Min <= n <= Int32Max }
  predicate InInt64Range(n: int) { Int64Min <= n <= Int64Max }

  /** `Convert.ToBoolean(string)`. */
  function ToBoolean(s: string): (r: Result<bool, ConversionError>)
    ensures r.Failure? ==> r.error == FormatError
    ensures forall b :: r == Success(b) <==> ParseBoolean(s) == Some(b)
  {
    match ParseBoolean(s)
    case Some(b) => Success(b)
    case None => Failure(FormatError)
  }

  /** Integer text in `[lo, hi]`: text that is not an integer is a
      FormatException, an integer outside the range an OverflowException. */
  function ToBoundedInteger(s: string, lo: int, hi: int): (r: Result<int, ConversionError>)
    ensures r.Success? ==> lo <= r.value <= hi && ParseInteger(s) == Some(r.value)
    ensures r == Failure(FormatError) <==> ParseInteger(s).None?
    ensures r == Failure(OverflowError) <==> ParseInteger(s).Some? && !(lo <= ParseInteger(s).value <= hi)
  {
    match ParseInteger(s)
    case None => Failure(FormatError)
    case Some(n) => if lo <= n <= hi then Success(n) else Failure(OverflowError)
  }

  /** `Convert.ToInt32(string)`. */
  function ToInt32(s: string): (r: Result<int, ConversionError>)
    ensures r.Success? ==> InInt32Range(r.value)
  {
    ToBoundedInteger(s, Int32Min, Int32Max)
  }

  /** `Convert.ToInt64(string)`. */
  function ToInt64(s: string): (r: Result<int, ConversionError>)
    ensures r.Success? ==> InInt64Range(r.value)
  {
    ToBoundedInteger(s, Int64Min, Int64Max)
  }

  /** Every representable integer survives formatting and conversion back. */
  lemma BoundedIntegerRoundTrip(n: int, lo: int, hi: int)
    requires lo <= n <= hi
    ensures ToBoundedInteger(ShowInt(n), lo, hi) == Success(n)
  {
    ParseShowInt(n);
  }

  /** Integer text just outside a range is an overflow, not a format error. */
  lemma BoundedIntegerOverflow(n: int, lo: int, hi: int)
    requires n < lo || hi < n
    ensures ToBoundedInteger(ShowInt(n), lo, hi) == Failure(OverflowError)
  {
    ParseShowInt(n);
  }

  /** `Convert.ToDouble(string)`. */
  function ToDouble(s: string, p: Parsers): (r: Result<Float64, ConversionError>)
    ensures r.Failure? <==> p.toDouble(s).None?
    ensures r.Success? ==> r.value == p.toDouble(s).value
    ensures r.Failure? ==> r.error == FormatError
  {
    match p.toDouble(s)
    case Some(d) => Success(d)
    case None => Failure(FormatError)
  }

  /** `Convert.ToDateTime(string)`. */
  function ToDateTime(s: string, p: Parsers): (r: Result<Timestamp, ConversionError>)
    ensures r.Failure? <==> p.toDateTime(s).None?
    ensures r.Success? ==> r.value == p.toDateTime(s).value
    ensures r.Failure? ==> r.error == FormatError
  {
    match p.toDateTime(s)
    case Some(t) => Success(t)
    case None => Failure(FormatError)
  }
}

=== FILE: values.dfy ===
/** The dynamic values the target assembles into documents, and the
    ExpandoObject / Dictionary<string, object> they are stored in: an
    association list kept in insertion order, where assigning to an existing
    key replaces its value in place. */
module Values {
  import opened Wrappers
  import opened Clr

  datatype Value =
    | Null
    | Str(s: string)
    | Bool(b: bool)
    | I32(i: int)
    | I64(l: int)
    | Real(d: Float64)
    | Time(t: Timestamp)
    | Other(o: ClrObject)     // any other object, kept opaque
    | Obj(fields: Expando)    // a nested ExpandoObject
    | List(items: seq<Value>) // a JSON array, as the round trip yields it

  datatype Entry = Entry(key: string, value: Value)

  type Expando = seq<Entry>

  /** The keys in enumeration order. */
  function Keys(d: Expando): (ks: seq<string>)
    ensures |ks| == |d|
    ensures forall i :: 0 <= i < |d| ==> ks[i] == d[i].key
  {
    seq(|d|, i requires 0 <= i < |d| => d[i].key)
  }

  /** A dictionary never holds the same key twice. */
  predicate UniqueKeys(d: Expando) {
    forall i, j :: 0 <= i < j < |d| ==> d[i].key != d[j].key
  }

  /** The position of the first entry with key `k`, if any. */
  function IndexOf(d: Expando, k: string): (r: Option<nat>)
    ensures r.Some? ==> r.value < |d| && d[r.value].key == k
    ensures r.Some? ==> forall j :: 0 <= j < r.value ==> d[j].key != k
    ensures r.None? <==> k !in Keys(d)
  {
    if |d| == 0 then None
    else if d[0].key == k then Some(0)
    else match IndexOf(d[1..], k)
      case None => None
      case Some(i) => Some(i + 1)
  }

  /** `TryGetValue`. */
  function Lookup(d: Expando, k: string): (r: Option<Value>)
    ensures r.Some? <==> k in Keys(d)
    ensures r.Some? ==> Entry(k, r.value) in d
    ensures UniqueKeys(d) ==> forall i :: 0 <= i < |d| && d[i].key == k ==> r == Some(d[i].value)
  {
    match IndexOf(d, k)
    case None => None
    case Some(i) => Some(d[i].value)
  }

  /** `d[k] = v`: replaces the value of an existing key where it stands,
      otherwise appends the entry. */
  function Set(d: Expando, k: string, v: Value): (r: Expando)
    ensures Lookup(r, k) == Some(v)
    ensures forall k' :: k' != k ==> Lookup(r, k') == Lookup(d, k')
    ensures k in Keys(d) ==> Keys(r) == Keys(d)
    ensures k !in Keys(d) ==> r == d + [Entry(k, v)]
    ensures forall e :: e in r ==> e in d || e == Entry(k, v)
    ensures UniqueKeys(d) ==> UniqueKeys(r)
  {
    match IndexOf(d, k)
    case None =>
      var r := d + [Entry(k, v)];
      assert IndexOf(r, k) == Some(|d|) by {
        assert forall j :: 0 <= j < |d| ==> Keys(d)[j] != k;
        IndexOfFirst(r, k, |d|);
      }
      assert forall k' :: k' != k ==> IndexOf(r, k') == IndexOf(d, k') by {
        forall k' | k' != k ensures IndexOf(r, k') == IndexOf(d, k') {
          IndexOfAppend(d, Entry(k, v), k');
        }
      }
      r
    case Some(i) =>
      var r := d[i := Entry(k, v)];
      assert Keys(r) == Keys(d);
      assert IndexOf(r, k) == Some(i) by { IndexOfFirst(r, k, i); }
      assert forall k' :: k' != k ==> IndexOf(r, k') == IndexOf(d, k') by {
        forall k' | k' != k ensures IndexOf(r, k') == IndexOf(d, k') {
          IndexOfReplace(d, i, Entry(k, v), k');
        }
      }
      r
  }

  /** `IndexOf` finds the first position holding the key. */
  lemma IndexOfFirst(d: Expando, k: string, i: nat)
    requires i < |d| && d[i].key == k
    requires forall j :: 0 <= j < i ==> d[j].key != k
    ensures IndexOf(d, k) == Some(i)
  {
    var r := IndexOf(d, k);
    assert r.Some? by { assert Keys(d)[i] == k; }
  }

  lemma IndexOfAppend(d: Expando, e: Entry, k: string)
    requires k != e.key
    ensures IndexOf(d + [e], k) == IndexOf(d, k)
  {
    match IndexOf(d, k)
    case None =>
      assert k !in Keys(d + [e]) by {
        assert forall j :: 0 <= j < |d + [e]| ==> (d + [e])[j].key != k;
      }
    case Some(i) => IndexOfFirst(d + [e], k, i);
  }

  lemma IndexOfReplace(d: Expando, i: nat, e: Entry, k: string)
    requires i < |d| && d[i].key == e.key && k != e.key
    ensures IndexOf(d[i := e], k) == IndexOf(d, k)
  {
    match IndexOf(d, k)
    case None =>
      var d' := d[i := e];
      assert k !in Keys(d') by {
        assert forall j :: 0 <= j < |d'| ==> d'[j].key != k;
      }
    case Some(m) => IndexOfFirst(d[i := e], k, m);
  }

  /** `key.Replace('.', '_')`. */
  function Underscored(key: string): (r: string)
    ensures |r| == |key|
    ensures '.' !in r
    ensures forall i :: 0 <= i < |key| ==> r[i] == if key[i] == '.' then '_' else key[i]
  {
    if |key| == 0 then []
    else [if key[0] == '.' then '_' else key[0]] + Underscored(key[1..])
  }

  /** A key without a dot is left as it is. */
  lemma {:induction false} UnderscoredIdentity(key: string)
    requires '.' !in key
    ensures Underscored(key) == key
  {
    if |key| > 0 {
      assert key[0] in key;
      assert key[1..] == key[1..];
      assert forall c :: c in key[1..] ==> c in key;
      UnderscoredIdentity(key[1..]);
    }
  }

  /** No key contains a dot, here or in any object nested directly as a
      value; objects held inside lists are not looked at. */
  predicate NoDottedKeys(d: Expando) {
    forall e | e in d :: '.' !in e.key && (e.value.Obj? ==> NoDottedKeys(e.value.fields))
  }

  /** No value is null, here or in any object nested directly as a value;
      the contents of lists are not looked at. */
  predicate NoNullValues(d: Expando) {
    forall e | e in d :: !e.value.Null? && (e.value.Obj? ==> NoNullValues(e.value.fields))
  }

  /** Keys are unique here and in every object nested directly as a value. */
  predicate UniqueKeysDeep(d: Expando) {
    && UniqueKeys(d)
    && forall e | e in d :: e.value.Obj? ==> UniqueKeysDeep(e.value.fields)
  }

  /** The shape the dot-replacing rewrite produces: it descends into nested
      objects but not into lists, so the objects a list holds keep their
      dotted keys and null values. */
  predicate Canonical(d: Expando) {
    NoDottedKeys(d) && NoNullValues(d) && UniqueKeysDeep(d)
  }

  /** Assigning a dot-free key a non-null canonical value keeps a canonical object canonical. */
  lemma SetCanonical(d: Expando, k: string, v: Value)
    requires Canonical(d) && '.' !in k && !v.Null?
    requires v.Obj? ==> Canonical(v.fields)
    ensures Canonical(Set(d, k, v))
  {
  }

  /** A prefix of a canonical object is canonical. */
  lemma PrefixCanonical(d: Expando, n: nat)
    requires Canonical(d) && n <= |d|
    ensures Canonical(d[..n])
  {
    assert forall e :: e in d[..n] ==> e in d;
  }

  /** The last entry of a canonical object: a dot-free, non-null value under
      a dot-free key that no earlier entry has, after a canonical prefix. */
  lemma CanonicalLast(d: Expando)
    requires Canonical(d) && |d| > 0
    ensures var n := |d| - 1;
      && Canonical(d[..n])
      && '.' !in d[n].key && !d[n].value.Null?
      && d[n].key !in Keys(d[..n])
      && (d[n].value.Obj? ==> Canonical(d[n].value.fields))
  {
    var n := |d| - 1;
    assert d[n] in d;
    PrefixCanonical(d, n);
    assert forall j :: 0 <= j < n ==> Keys(d[..n])[j] == d[j].key != d[n].key;
  }

  /** Appending entries leaves the lookup of a key already present unchanged. */
  lemma LookupExtend(d: Expando, more: Expando, k: string)
    requires k in Keys(d)
    ensures Lookup(d + more, k) == Lookup(d, k)
  {
    var i := IndexOf(d, k).value;
    IndexOfFirst(d + more, k, i);
  }

  /** The keys of an object with one more entry. */
  lemma KeysAppend(d: Expando, e: Entry, k: string)
    ensures k in Keys(d + [e]) <==> k in Keys(d) || k == e.key
  {
    assert Keys(d + [e]) == Keys(d) + [e.key];
  }
}

=== FILE: wrappers.dfy ===
/** Failure-carrying return types used throughout the model in place of
    .NET nulls and thrown exceptions. */
module Wrappers {

  /** A value that may be absent: a .NET reference that may be null. */
  datatype Option<+T> = None | Some(value: T) {

    /** The wrapped value, or `default` when absent (the `??` operator). */
    function GetOr(default: T): T {
      match this
      case Some(v) => v
      case None => default
    }
  }

  /** The outcome of an operation that either returns a value or throws. */
  datatype Result<+R, +E> = Success(value: R) | Failure(error: E)
}
